=== FILE: README.md ===
# Bus reservation bookkeeping, modelled in Dafny

This project models the seat inventory and reservation bookkeeping of a
console bus-ticket reservation program (`main.py`). Every operation that
changes or reads the store is a pure function from one store to the next:

- the 30-day booking window (`carregar_datas`);
- the lines file: its records written (`salvar_linhas`) and read back
  (`carregar_linhas`), with Python's `strip`, `split(';')`, `int()`, `str()`,
  and `float()`/`str()` on fares held as whole cents;
- registering a line (`cadastrar_linha`);
- the schedule query by city (`consultar_horarios`);
- the seat query with an optional reservation (`consultar_assentos`);
- a seat reservation (`fazer_reserva`) and the reservation menu entry that
  picks its line;
- a run: start-up, then menu choices in turn, until the program ends.

A store holds:

- the window dates;
- the line ids in dictionary insertion order;
- the lines (route, departure time, fare, and each date's free seats);
- the ledger of confirmed reservations;
- the log of failed attempts.

The central invariant is `Inventory.Valid`. For each line and each window
date, the free seats and the seats the ledger holds for that trip are
exactly the seats 1..20, each once. The free list also stays sorted.

Modules:

- `Wrappers`: `Option` and `Result`.
- `Lists`: first index, removing the first occurrence, maximum.
- `Text`: Python's whitespace set and `strip`, `split` and its inverse
  `Join`, integer and fare text.
- `Dates`: the window.
- `Inventory`: the entities and the invariant.
- `Records`: the lines file and the failure-log entry text.
- `Booking`: the operations.
- `Session`: start-up and the menu loop.

Three behaviours of the code are easy to miss:

- Only the seat query checks that the date has a seat list, and
  answers "Data fora do período permitido" when it does not
  (main.py:102-111). The reservation menu entry passes the date on
  unchecked (main.py:180-182), so `dados["assentos"][data]` raises a
  KeyError that ends the program (main.py:119). This is the
  `UnknownDate` outcome of `Booking.Reserve`, and `Session.Step` halts
  on it.
- Loading converts the id with `int()` and the fare with `float()`
  (main.py:30, main.py:34), and both accept a leading minus sign. Ids
  and fares are therefore plain integers here. After a record with a
  non-positive id, the next registered id (main.py:71) is not
  necessarily positive.
- Every seat number that is not in the free list is reported and logged
  as occupied (main.py:129-131), including numbers outside 1..20 that no
  trip has (`Booking.NonexistentSeatLoggedAsOccupied`).

## Model

| member | source | states |
|---|---|---|
| Dates.LoadDates | main.py:13-19 | the window has 30 days, starts today, and each day follows the previous one |
| Dates.WindowMembership | main.py:17-19 | a day lies in the window exactly when it is today or up to 29 days later; the window is strictly increasing |
| Lists.Remove | main.py:120 | `list.remove` drops exactly one occurrence (the first), so the result is one shorter and its multiset is the old one minus that value |
| Lists.Max | main.py:71 | the maximum is an element, and no element is larger |
| Lists.RemoveKeepsAscending | main.py:120 | removing a seat from a sorted free list leaves it sorted and without that seat |
| Text.StripSpan | main.py:27 | `strip()` keeps a prefix of what follows the leading whitespace, every non-space character of `s` lies inside the kept part, and the kept part has no whitespace at either end, under Python's full whitespace set |
| Text.Split | main.py:27 | `split(';')` pieces contain no separator, there is at least one, and joining them with the separator gives back the text (empty pieces kept) |
| Text.SplitJoin | main.py:27-42 | splitting the separator-joined fields gives back the fields |
| Text.StripLine | main.py:27 | `strip()` removes only the trailing newline and whitespace from a record that starts and ends with a non-space character |
| Text.SplitStripJoin | main.py:27-42 | a written record, once stripped and split, gives back the written fields |
| Text.NatText | main.py:42 | `str()` of a natural number is non-empty decimal digits whose value is the number, with no leading zero |
| Text.IntTextForm | main.py:42 | `str()` of an integer has a minus sign exactly when it is negative, followed by digits whose value is its magnitude, with no leading zero |
| Text.ParseInt | main.py:30 | `int()` accepts exactly an optional sign followed by one or more digits; the value is the digits' value, negated exactly when the sign is a minus |
| Text.FareTextForm | main.py:42 | `str()` of a fare has a minus sign exactly when it is negative, then the digits Python prints for the magnitude: a whole part without a leading zero, a point, and one digit, or two when the second is not zero, worth exactly the magnitude in cents |
| Text.ParseFare | main.py:34 | a fare text is accepted exactly when, after an optional sign, it splits at points into one or more digits optionally followed by one or two digits; its value in cents is 100 times the whole part plus the fraction's cents, negated exactly after a minus sign; a text of digits alone is that many whole units |
| Lists.FirstOccurrences | main.py:30 | the order a dictionary keeps for keys assigned in sequence: each distinct key once, placed by its first assignment |
| Text.IntRoundTrip | main.py:30-42 | `int(str(i)) == i` for every integer |
| Text.FareRoundTrip | main.py:34-42 | `float(str(x)) == x` for every fare in whole cents, negatives included |
| Text.PyIntRoundTrip | main.py:30 | `int()` ignores surrounding whitespace and reads back every printed integer |
| Text.PyFareRoundTrip | main.py:34 | `float()` ignores surrounding whitespace and reads back every printed fare |
| Inventory.AllSeatsShape | main.py:35 | `list(range(1, 21))` has 20 seats in ascending order, and a number is among them exactly when it is 1..20 |
| Inventory.Put | main.py:30-36 | dictionary assignment: the map gets the key; a new key goes to the end of the insertion order; an existing key keeps its position |
| Inventory.FreshStoreValid | main.py:35 | a store with an empty ledger, where every line has all seats free on every window date, satisfies the invariant |
| Inventory.SeatAccounting | main.py:119-126 | under the invariant, a seat in 1..20 is reserved once exactly when it is not free; a number outside 1..20 is neither free nor reserved |
| Inventory.ReservedAtMostOnce | main.py:119-126 | under the invariant, no two ledger entries hold the same seat of the same trip |
| Records.SaveRecords | main.py:38-42 | one record per line, in insertion order, each being id, origin, destination, time and fare joined by `;` plus a newline |
| Records.ParseRecord | main.py:27-34 | a record is skipped exactly when it does not have five fields after `strip` and `split(';')`. A five-field record is parsed exactly when `float()` accepts its last field and `int()` its first; it is a fare error exactly when the fare fails, and otherwise an id error, since the fare is converted first. A parsed record's id and fare are what `int()` and `float()` give, and its origin, destination and time are the second, third and fourth fields |
| Records.LoadRecords | main.py:21-36 | an empty file gives the empty store. Loading succeeds exactly when no five-field record fails conversion, and otherwise names the first that does. On success the store is well formed over the window with an empty ledger and log, holds a line for exactly the ids some parsed record carries, and lists them by first occurrence |
| Records.LoadParsed | main.py:21-36 | a successful load gives a well-formed store over the window, with every line's seats all free and an empty ledger and failure log |
| Records.LoadedStoreValid | main.py:35 | a loaded store satisfies the invariant |
| Records.LoadFailsAtFirstMalformed | main.py:26-34 | loading fails exactly when some five-field record has a fare or id that does not convert, and then reports the first such record |
| Records.LoadSkipsOtherFieldCounts | main.py:27-28 | a record without exactly five fields leaves the load result unchanged |
| Records.LoadedLines | main.py:26-36 | a successful load holds a line for exactly the ids of the parsed records and lists them by first occurrence in the file, so a later duplicate keeps the first one's position |
| Records.LastRecordWins | main.py:30-36 | with duplicate ids, the line loaded for an id is the one from its last record |
| Records.RecordFieldsRoundTrip | main.py:27-42 | the record written for a line, stripped and split, gives its five written fields |
| Records.RecordRoundTrip | main.py:27-42 | reading back a written record gives the line's id, origin, destination, time and fare |
| Records.SaveLoadRoundTrip | main.py:21-42 | saving and reloading gives every line back in the same order, with the same metadata and with all seats free |
| Records.FailureTextFields | main.py:44-47 | a failure-log entry splits on `;` into the attempt's description and the reason |
| Booking.Register | main.py:64-80 | the new id is not in use; it is 1 for an empty store, otherwise one more than the largest id; it is appended to the order with all seats free; existing lines, ledger and log are unchanged |
| Booking.RegisterKeepsValid | main.py:71-78 | registering keeps the invariant |
| Booking.RegisterSavesOneRecord | main.py:72-79 | after registering, the lines file holds exactly one more record, the new line's, after the existing ones |
| Booking.ServingIn | main.py:87-90 | the ids whose line serves the city, in their relative insertion order |
| Booking.Schedule | main.py:82-92 | an id is listed exactly when its line leaves from or goes to the city, and the listing follows insertion order |
| Booking.FirstFrom | main.py:100-101 | the first position from a start point whose line has the destination and time; none when no later line has them |
| Booking.FindTrip | main.py:100-101 | the result has the destination and time, and no earlier line in insertion order does; there is no result exactly when no line makes the trip |
| Booking.Reserve | main.py:114-133 | non-numeric input is invalid and changes nothing. A date with no seat list is an unknown date and changes nothing. A free seat leaves that date's free list (multiset minus the seat, one shorter, still sorted), the ledger gains exactly one entry with the line's fare, and nothing else changes. Any other seat only appends one "Assento ocupado" failure. Each outcome happens exactly under its condition. |
| Booking.NonexistentSeatLoggedAsOccupied | main.py:119-131 | a seat number outside 1..20 on a window date is rejected and logged as occupied |
| Booking.ReserveKeepsValid | main.py:119-127 | every reservation outcome keeps the invariant |
| Booking.SecondClaimRejected | main.py:119-131 | repeating a confirmed reservation is rejected as occupied, leaves lines and ledger unchanged, and logs one failure |
| Booking.ReserveSavesSameRecords | main.py:120-127 | a reservation does not change what the lines file holds |
| Booking.ConsultSeats | main.py:94-112 | no trip exactly when no line matches. Otherwise the first match only: without the date, out of range and nothing changes; with the date, its free seats are shown, and a reservation is made on that line exactly when the answer is `s` or `S` |
| Booking.ConsultChecksOnlyFirstMatch | main.py:100-111 | when the first matching line lacks the date, the query is out of range even though a later matching line has it. Under the invariant every line has the same dates, so this cannot arise in a run |
| Booking.ConsultOutOfRange | main.py:100-111 | under the invariant, the seat query answers out of range exactly when some line makes the trip and the date is outside the window |
| Booking.ReserveByTrip | main.py:176-183 | the reservation goes to the first matching line; when no line matches, nothing happens |
| Session.Start | main.py:165-167 | start-up gives an invariant-satisfying store over the window starting today, with an empty ledger and log; a missing file gives the empty store |
| Session.Step | main.py:168-192 | a menu choice keeps the store well formed and the window fixed, and the schedule query and the other options change nothing. The program ends with the store unchanged on a registration whose fare `float()` rejects, on a reservation-menu choice reaching a date without seats, when another option's file read raises, and on leaving the menu (`Other(true)`). The schedule and seat queries never end it |
| Session.QueryStep | main.py:94-112 | the seat query checks the date before reserving, so it never ends the program |
| Session.TripStep | main.py:176-183 | the reservation menu entry ends the program exactly when a line matches, that line has no seat list for the date, and the seat text is a number; the store is then unchanged |
| Session.Run | main.py:168-192 | the choices in turn, stopping where the program ends; the store stays well formed over the same window |
| Session.StepKeepsValid | main.py:168-192 | every menu choice keeps the invariant |
| Session.RunKeepsValid | main.py:168-192 | any sequence of menu choices keeps the invariant |
| Session.SessionKeepsValid | main.py:165-192 | from start-up through any choices, the invariant holds |
| Session.ReserveExtends | main.py:119-131 | a reservation never frees a seat, removes a line, changes a route, or shortens the ledger or the log |
| Session.StepExtends | main.py:168-192 | no menu choice frees a seat, removes or alters a line, or shortens the ledger or the log |
| Session.RunExtends | main.py:165-192 | within a run, reservations are irreversible: free seats only shrink, and ledger entries and logged failures stay |

## Left out

- Menus, prompts and messages: output only, no state. Each choice carries
  the answers typed for it.
- Files: the lines file is a sequence of raw records, each one line as
  Python's text-mode reader returns it. An absent file is the empty
  sequence. The failure log is kept as structured entries in the store.
  `Records.FailureText` gives an entry's text. Entries already in the
  file from earlier runs are not modelled.
- Universal-newline translation and the file's UTF-8 decoding: not
  modelled. The round-trip lemmas require text fields without `;`,
  `\n` or `\r` (`Records.SafeField`). A field holding `\r` is written
  as is, but the reader splits the record there, and both halves are
  then skipped.
- Date text (`strftime("%d/%m/%Y")`): dates are day numbers. A typed date
  that is not the text of a window date is a day outside the window. The
  date's printed form in a failure entry is a parameter.
- Floating point: fares are whole cents. The fare text read is an
  optional sign, digits, and optionally a point with one or two digits.
  Other texts `float()` accepts (`.5`, `5.`, exponents, `inf`, `nan`,
  underscores, more decimals) are rejected by `Text.ParseFare`. A lines
  file holding one therefore makes `Records.LoadRecords` fail, so the
  model stops at start-up where the program loads the file. Fares that
  are not whole cents are not modelled. Negative zero is not modelled
  either: `Text.ParseFare` reads `-0` and `-0.0` as 0 cents, and
  `Text.FareTextForm` prints 0 cents as `0.0`. The program keeps
  `float("-0")` as `-0.0`, which is not below zero, and `str()` prints
  it `-0.0`. So a loaded record whose fare is `-0` is written back with
  `0.0` by `Records.SaveRecords`, where `salvar_linhas` writes `-0.0`.
- Text.FareRoundTrip: holds for the model's exact cents. Doubles stop
  holding every whole number of cents at about 7e13 (2^46) currency
  units. From there on, `str()` of a float differs from `Text.FareText`,
  and `float(str(x)) == x` fails for fares with cents. From 1e16 on,
  `str()` also switches to exponent notation. Neither range is
  modelled; the same bound applies to `Text.FareTextForm` and
  `Text.PyFareRoundTrip`.
- `int()`: underscores between digits and non-ASCII digits are not
  accepted by the model.
- `cadastrar_linha`: the typed fare arrives as the value `float()` gives
  it, or None when `float()` raises ValueError. The program then ends
  before any change.
- Reading a reservations file (`ler_reservas_arquivo`) and reports
  (`relatorios`): they print but change no state. They are the `Other`
  choice of `Session.Command`, as is leaving the menu ("Sair",
  main.py:188-190), which is always `Other(true)`. The `halts` flag is
  given, not computed. It is true when the read raises, which ends the
  program: a path that exists but cannot be opened as a file, such as a
  directory (main.py:141); a four-field row whose seat is not an integer
  (main.py:146); or a file that is not UTF-8.
- Session.Step: end of input (`input()` raising EOFError) and operating
  system errors while writing the lines file or the failure log also end
  the program at any choice. These are not modelled.

=== FILE: booking.dfy ===
/** The operations of a run, each a pure transition of the store:
    registering a line, the schedule query by city, the trip lookup by
    destination and time, the seat query, and the seat reservation. */
module Booking {
  import opened Wrappers
  import opened Lists
  import opened Text
  import opened Dates
  import opened Inventory
  import opened Records

  // ----- Registering a line -----

  /** The id `cadastrar_linha` assigns: one more than the largest id, or 1
      when there are no lines. */
  function NextId(s: Store): LineId {
    if s.order == [] then 1 else Max(s.order) + 1
  }

  datatype Registered = Registered(id: LineId, store: Store)

  /** Adds a line with the given route, time and fare under a new id, with
      every seat free on every window date; nothing else changes. */
  function Register(s: Store, origin: string, destination: string, time: string, fare: Fare): (r: Registered)
    requires WellFormed(s)
    ensures r.id !in s.lines
    ensures s.lines == map[] ==> r.id == 1
    ensures s.lines != map[] ==> r.id - 1 in s.lines && forall k :: k in s.lines ==> k < r.id
    ensures r.store.order == s.order + [r.id]
    ensures r.store.lines.Keys == s.lines.Keys + {r.id}
    ensures forall k :: k in s.lines ==> r.store.lines[k] == s.lines[k]
    ensures r.store.lines[r.id] == Line(origin, destination, time, fare, FreshSeats(s.window))
    ensures r.store.window == s.window && r.store.ledger == s.ledger && r.store.failures == s.failures
  {
    var id := NextId(s);
    NextIdFresh(s);
    var t := Put(s, id, Line(origin, destination, time, fare, FreshSeats(s.window)));
    assert t.lines.Keys == s.lines.Keys + {id};
    Registered(id, t)
  }

  /** The next id is larger than every id in use, and follows the largest. */
  lemma NextIdFresh(s: Store)
    requires WellFormed(s)
    ensures forall k :: k in s.lines ==> k < NextId(s)
    ensures s.lines == map[] ==> NextId(s) == 1
    ensures s.lines != map[] ==> NextId(s) - 1 in s.lines
  {
    KeysListed(s);
    if s.order != [] {
      var m := Max(s.order);
      forall k | k in s.lines
        ensures k < m + 1
      {
        var i :| 0 <= i < |s.order| && s.order[i] == k;
      }
    }
  }

  /** The order is empty exactly when there are no lines. */
  lemma KeysListed(s: Store)
    requires WellFormed(s)
    ensures s.lines == map[] <==> s.order == []
  {
    if s.order != [] {
      assert s.order[0] in s.lines;
    }
    if s.order == [] {
      assert forall id :: id !in s.lines;
      assert s.lines == map[];
    }
  }

  /** Registering keeps the bookkeeping invariant: the new line has no
      reservations, and its seats are all free. */
  lemma RegisterKeepsValid(s: Store, origin: string, destination: string, time: string, fare: Fare)
    requires Valid(s)
    ensures Valid(Register(s, origin, destination, time, fare).store)
  {
    var r := Register(s, origin, destination, time, fare);
    var t := r.store;
    AllSeatsShape();
    forall d | d in t.lines[r.id].seats
      ensures SeatsPartitioned(t.lines[r.id].seats[d], Taken(t.ledger, r.id, d))
    {
      forall i | 0 <= i < |s.ledger|
        ensures s.ledger[i].line != r.id
      {
        assert EntryValid(s, s.ledger[i]);
      }
      TakenNone(s.ledger, r.id, d);
    }
    assert LineValid(t, r.id);
    forall id | id in t.lines
      ensures LineValid(t, id)
    {
      if id != r.id {
        assert LineValid(s, id);
      }
    }
    forall i | 0 <= i < |t.ledger|
      ensures EntryValid(t, t.ledger[i])
    {
      assert EntryValid(s, s.ledger[i]);
    }
  }

  /** Registering writes exactly one more record to the lines file, the new
      line's, after the existing ones. */
  lemma RegisterSavesOneRecord(s: Store, origin: string, destination: string, time: string, fare: Fare)
    requires WellFormed(s)
    ensures var r := Register(s, origin, destination, time, fare);
            SaveRecords(r.store) == SaveRecords(s) + [RecordText(r.id, r.store.lines[r.id])]
  {
    var r := Register(s, origin, destination, time, fare);
    SavesAppended(s, r.store, r.id);
  }

  /** A store that lists one more line after the same lines saves one more
      record after the same records. */
  lemma SavesAppended(s: Store, t: Store, id: LineId)
    requires WellFormed(s) && WellFormed(t)
    requires t.order == s.order + [id] && id in t.lines
    requires forall k :: k in s.lines ==> k in t.lines && t.lines[k] == s.lines[k]
    ensures SaveRecords(t) == SaveRecords(s) + [RecordText(id, t.lines[id])]
  {
    var x := SaveRecords(t);
    var y := SaveRecords(s) + [RecordText(id, t.lines[id])];
    forall k | 0 <= k < |x|
      ensures x[k] == y[k]
    {
      if k < |s.order| {
        assert t.order[k] == s.order[k];
      }
    }
  }

  // ----- Schedule query -----

  /** A line serves a city when it leaves from or goes to it. */
  predicate Serves(line: Line, city: string) {
    line.origin == city || line.destination == city
  }

  /** `consultar_horarios`: the ids of the lines serving `city`, in
      insertion order. An empty result is the "no schedule found" answer. */
  function Schedule(s: Store, city: string): (ids: seq<LineId>)
    requires WellFormed(s)
    ensures forall id :: id in ids <==> id in s.lines && Serves(s.lines[id], city)
    ensures forall i, j :: 0 <= i < j < |ids| ==>
              ids[i] in s.order && ids[j] in s.order && IndexOf(s.order, ids[i]) < IndexOf(s.order, ids[j])
  {
    ServingIn(s.order, s.lines, city)
  }

  function ServingIn(order: seq<LineId>, lines: map<LineId, Line>, city: string): (ids: seq<LineId>)
    requires NoDup(order)
    requires forall k :: 0 <= k < |order| ==> order[k] in lines
    ensures forall id :: id in ids <==> id in order && id in lines && Serves(lines[id], city)
    ensures forall i, j :: 0 <= i < j < |ids| ==>
              ids[i] in order && ids[j] in order && IndexOf(order, ids[i]) < IndexOf(order, ids[j])
  {
    if order == [] then []
    else
      var n := |order| - 1;
      var rest := ServingIn(order[..n], lines, city);
      assert forall id :: id in order <==> id in order[..n] || id == order[n];
      forall x | x in order[..n]
        ensures IndexOf(order, x) == IndexOf(order[..n], x) < n
      {
        IndexOfPrefix(order, n, x);
      }
      IndexOfNoDup(order, n);
      if Serves(lines[order[n]], city) then rest + [order[n]] else rest
  }

  // ----- Trip lookup -----

  /** A line makes the trip to `destination` leaving at `time`. */
  predicate Departs(line: Line, destination: string, time: string) {
    line.destination == destination && line.time == time
  }

  /** The first line in insertion order, from position `k` on, that makes
      the trip. */
  function FirstFrom(s: Store, destination: string, time: string, k: nat): (r: Option<nat>)
    requires WellFormed(s) && k <= |s.order|
    ensures r.Some? ==> k <= r.value < |s.order| && Departs(s.lines[s.order[r.value]], destination, time)
    ensures r.Some? ==> forall j :: k <= j < r.value ==> !Departs(s.lines[s.order[j]], destination, time)
    ensures r.None? ==> forall j :: k <= j < |s.order| ==> !Departs(s.lines[s.order[j]], destination, time)
    decreases |s.order| - k
  {
    if k == |s.order| then None
    else if Departs(s.lines[s.order[k]], destination, time) then Some(k)
    else FirstFrom(s, destination, time, k + 1)
  }

  /** The lookup of `consultar_assentos` and of the reservation menu: the
      first line in insertion order making the trip, if any. */
  function FindTrip(s: Store, destination: string, time: string): (r: Option<LineId>)
    requires WellFormed(s)
    ensures r.Some? ==> r.value in s.lines && r.value in s.order && Departs(s.lines[r.value], destination, time)
    ensures r.Some? ==> forall j :: 0 <= j < IndexOf(s.order, r.value) ==> !Departs(s.lines[s.order[j]], destination, time)
    ensures r.None? <==> forall id :: id in s.lines ==> !Departs(s.lines[id], destination, time)
  {
    match FirstFrom(s, destination, time, 0)
    case None =>
      forall id | id in s.lines
        ensures !Departs(s.lines[id], destination, time)
      {
        assert s.order[IndexOf(s.order, id)] == id;
      }
      None
    case Some(k) =>
      IndexOfNoDup(s.order, k);
      var id := s.order[k];
      assert id in s.lines && Departs(s.lines[id], destination, time);
      assert !(forall id :: id in s.lines ==> !Departs(s.lines[id], destination, time));
      Some(id)
  }

  // ----- Reserving a seat -----

  /** How a reservation attempt ends. `UnknownDate` is the uncaught KeyError
      raised when the date has no seat list, which ends the program. */
  datatype ReserveOutcome = Confirmed(seat: int) | SeatTaken(seat: int) | InvalidSeat | UnknownDate(seat: int)

  datatype Reserved = Reserved(outcome: ReserveOutcome, store: Store)

  /** The reason the failure log gives for a seat that is not free. */
  const OccupiedReason: string := "Assento ocupado"

  /** The state change of claiming `seat` on line `id` at `date`: that
      date's free list loses exactly the seat, the ledger gains exactly one
      entry carrying the line's fare, and nothing else changes. */
  ghost predicate Claimed(s: Store, t: Store, id: LineId, date: Day, seat: int)
    requires id in s.lines && date in s.lines[id].seats
  {
    var line := s.lines[id];
    var free := line.seats[date];
    && t.window == s.window && t.order == s.order && t.failures == s.failures
    && t.ledger == s.ledger + [Reservation(id, date, seat, line.fare)]
    && t.lines.Keys == s.lines.Keys
    && (forall other :: other in s.lines && other != id ==> t.lines[other] == s.lines[other])
    && var line' := t.lines[id];
    && line'.origin == line.origin && line'.destination == line.destination
    && line'.time == line.time && line'.fare == line.fare
    && line'.seats.Keys == line.seats.Keys
    && (forall d :: d in line.seats && d != date ==> line'.seats[d] == line.seats[d])
    && multiset(line'.seats[date]) == multiset(free) - multiset{seat}
    && |line'.seats[date]| == |free| - 1
  }

  /** `fazer_reserva`: the seat text is converted first (not a number: invalid,
      nothing changes); then a date without a seat list ends the program;
      a free seat is claimed; any other seat number appends one failure
      entry and changes nothing else. */
  function Reserve(s: Store, id: LineId, date: Day, seatInput: string): (r: Reserved)
    requires id in s.lines
    ensures r.outcome.InvalidSeat? <==> PyInt(seatInput).None?
    ensures r.outcome.UnknownDate? <==> PyInt(seatInput).Some? && date !in s.lines[id].seats
    ensures r.outcome.Confirmed? <==>
              && PyInt(seatInput).Some? && date in s.lines[id].seats
              && PyInt(seatInput).value in s.lines[id].seats[date]
    ensures r.outcome.SeatTaken? <==>
              && PyInt(seatInput).Some? && date in s.lines[id].seats
              && PyInt(seatInput).value !in s.lines[id].seats[date]
    ensures r.outcome.InvalidSeat? || r.outcome.UnknownDate? ==> r.store == s
    ensures r.outcome.Confirmed? ==>
              && r.outcome.seat == PyInt(seatInput).value
              && Claimed(s, r.store, id, date, r.outcome.seat)
    ensures r.outcome.Confirmed? && Ascending(s.lines[id].seats[date]) ==>
              && Ascending(r.store.lines[id].seats[date])
              && r.outcome.seat !in r.store.lines[id].seats[date]
    ensures r.outcome.SeatTaken? ==>
              && r.outcome.seat == PyInt(seatInput).value
              && r.store == s.(failures := s.failures + [FailedAttempt(id, date, r.outcome.seat, OccupiedReason)])
  {
    match PyInt(seatInput)
    case None => Reserved(InvalidSeat, s)
    case Some(n) =>
      var line := s.lines[id];
      if date !in line.seats then Reserved(UnknownDate(n), s)
      else if n in line.seats[date] then
        var free := line.seats[date];
        SortedClaim(free, n);
        var line' := line.(seats := line.seats[date := Remove(free, n)]);
        Reserved(Confirmed(n), s.(lines := s.lines[id := line'],
                                  ledger := s.ledger + [Reservation(id, date, n, line.fare)]))
      else
        Reserved(SeatTaken(n), s.(failures := s.failures + [FailedAttempt(id, date, n, OccupiedReason)]))
  }

  /** Removing a seat from a sorted free list leaves it sorted and without
      that seat. */
  lemma SortedClaim(free: seq<int>, n: int)
    requires n in free
    ensures Ascending(free) ==> Ascending(Remove(free, n)) && n !in Remove(free, n)
  {
    if Ascending(free) {
      RemoveKeepsAscending(free, n);
    }
  }

  /** A seat number outside 1..20 is never free, so it is reported and logged
      as occupied. */
  lemma NonexistentSeatLoggedAsOccupied(s: Store, id: LineId, date: Day, seatInput: string)
    requires Valid(s) && id in s.lines && date in s.lines[id].seats
    requires PyInt(seatInput).Some? && !(1 <= PyInt(seatInput).value <= SeatsPerTrip)
    ensures Reserve(s, id, date, seatInput).outcome == SeatTaken(PyInt(seatInput).value)
  {
    SeatAccounting(s, id, date, PyInt(seatInput).value);
  }

  /** Reserving keeps the bookkeeping invariant: a claimed seat moves from
      the free list to the ledger, a rejected attempt touches neither. */
  lemma ReserveKeepsValid(s: Store, id: LineId, date: Day, seatInput: string)
    requires Valid(s) && id in s.lines
    ensures Valid(Reserve(s, id, date, seatInput).store)
  {
    var r := Reserve(s, id, date, seatInput);
    if r.outcome.Confirmed? {
      ClaimKeepsValid(s, r.store, id, date, r.outcome.seat);
    } else if r.outcome.SeatTaken? {
      var t := r.store;
      forall k | k in t.lines
        ensures LineValid(t, k)
      {
        assert LineValid(s, k);
      }
      forall i | 0 <= i < |t.ledger|
        ensures EntryValid(t, t.ledger[i])
      {
        assert EntryValid(s, s.ledger[i]);
      }
    }
  }

  lemma ClaimKeepsValid(s: Store, t: Store, id: LineId, date: Day, n: int)
    requires Valid(s) && id in s.lines && date in s.lines[id].seats
    requires n in s.lines[id].seats[date]
    requires Claimed(s, t, id, date, n)
    requires Ascending(t.lines[id].seats[date])
    ensures Valid(t)
  {
    forall k | k in t.lines
      ensures LineValid(t, k)
    {
      ClaimLineValid(s, t, id, date, n, k);
    }
    forall i | 0 <= i < |t.ledger|
      ensures EntryValid(t, t.ledger[i])
    {
      if i < |s.ledger| {
        assert EntryValid(s, s.ledger[i]);
      }
    }
  }

  lemma ClaimLineValid(s: Store, t: Store, id: LineId, date: Day, n: int, k: LineId)
    requires Valid(s) && id in s.lines && date in s.lines[id].seats
    requires n in s.lines[id].seats[date]
    requires Claimed(s, t, id, date, n)
    requires Ascending(t.lines[id].seats[date])
    requires k in t.lines
    ensures LineValid(t, k)
  {
    assert LineValid(s, k);
    var e := Reservation(id, date, n, s.lines[id].fare);
    forall d | d in t.lines[k].seats
      ensures SeatsPartitioned(t.lines[k].seats[d], Taken(t.ledger, k, d))
    {
      TakenAppend(s.ledger, e, k, d);
      if k == id && d == date {
        ClaimedTripPartitioned(s, t, id, date, n);
      } else {
        assert t.lines[k].seats[d] == s.lines[k].seats[d];
        assert Taken(t.ledger, k, d) == Taken(s.ledger, k, d);
      }
    }
  }

  lemma ClaimedTripPartitioned(s: Store, t: Store, id: LineId, date: Day, n: int)
    requires Valid(s) && id in s.lines && date in s.lines[id].seats
    requires n in s.lines[id].seats[date]
    requires Claimed(s, t, id, date, n)
    requires Ascending(t.lines[id].seats[date])
    ensures SeatsPartitioned(t.lines[id].seats[date], Taken(t.ledger, id, date))
  {
    assert LineValid(s, id);
    var free := s.lines[id].seats[date];
    var free' := t.lines[id].seats[date];
    var taken := Taken(s.ledger, id, date);
    TakenAppend(s.ledger, Reservation(id, date, n, s.lines[id].fare), id, date);
    assert Taken(t.ledger, id, date) == taken + multiset{n};
    assert multiset(free) == multiset(free') + multiset{n};
    assert multiset(free) + taken == multiset(AllSeats());
  }

  /** Once a seat is claimed, asking for it again on the same trip is
      rejected as occupied and logged once: a reservation cannot be undone
      or repeated. */
  lemma SecondClaimRejected(s: Store, id: LineId, date: Day, seatInput: string)
    requires Valid(s) && id in s.lines
    requires Reserve(s, id, date, seatInput).outcome.Confirmed?
    ensures var t := Reserve(s, id, date, seatInput).store;
            var u := Reserve(t, id, date, seatInput);
            && u.outcome == SeatTaken(PyInt(seatInput).value)
            && u.store.lines == t.lines && u.store.ledger == t.ledger
            && |u.store.failures| == |t.failures| + 1
  {
    assert LineValid(s, id);
  }

  /** Reserving never changes what the lines file holds. */
  lemma ReserveSavesSameRecords(s: Store, id: LineId, date: Day, seatInput: string)
    requires WellFormed(s) && id in s.lines
    ensures WellFormed(Reserve(s, id, date, seatInput).store)
    ensures SaveRecords(Reserve(s, id, date, seatInput).store) == SaveRecords(s)
  {
    var t := Reserve(s, id, date, seatInput).store;
    if t != s {
      var line := s.lines[id];
      var line' := t.lines[id];
      assert RecordFields(id, line') == RecordFields(id, line);
      SavesSameRecords(s, t);
    }
  }

  /** A store that lists the same lines with the same records saves the same
      file. */
  lemma SavesSameRecords(s: Store, t: Store)
    requires WellFormed(s)
    requires t.order == s.order && t.lines.Keys == s.lines.Keys
    requires forall k :: k in s.lines ==> RecordText(k, t.lines[k]) == RecordText(k, s.lines[k])
    ensures WellFormed(t)
    ensures SaveRecords(t) == SaveRecords(s)
  {
    var x := SaveRecords(t);
    var y := SaveRecords(s);
    forall k | 0 <= k < |x|
      ensures x[k] == y[k]
    {
      assert s.order[k] in s.lines;
    }
  }

  // ----- Seat query and the reservation menu -----

  /** What `consultar_assentos` shows: no matching trip, the first match
      lacking the date, or that trip's free seats together with the outcome
      of the reservation if the user asked for one. */
  datatype SeatQuery =
    | NoTrip
    | DateOutOfRange(id: LineId)
    | Shown(id: LineId, free: seq<int>, reservation: Option<ReserveOutcome>)

  datatype Consulted = Consulted(query: SeatQuery, store: Store)

  /** The answer `reservar.lower() == "s"` accepts. */
  predicate Accepts(answer: string) {
    answer == "s" || answer == "S"
  }

  /** `consultar_assentos`: looks up the first line making the trip; if it
      has no seat list for the date the query stops there, without trying
      another line; otherwise it shows the free seats and, when the answer
      accepts, reserves on that line. */
  function ConsultSeats(s: Store, destination: string, time: string, date: Day,
                        answer: string, seatInput: string): (r: Consulted)
    requires WellFormed(s)
    ensures r.query.NoTrip? <==> forall id :: id in s.lines ==> !Departs(s.lines[id], destination, time)
    ensures !r.query.NoTrip? ==> FindTrip(s, destination, time) == Some(r.query.id)
    ensures r.query.DateOutOfRange? <==> !r.query.NoTrip? && date !in s.lines[r.query.id].seats
    ensures r.query.Shown? ==> r.query.free == s.lines[r.query.id].seats[date]
    ensures r.query.Shown? ==> (r.query.reservation.Some? <==> Accepts(answer))
    ensures !(r.query.Shown? && r.query.reservation.Some?) ==> r.store == s
    ensures r.query.Shown? && r.query.reservation.Some? ==>
              Reserved(r.query.reservation.value, r.store) == Reserve(s, r.query.id, date, seatInput)
  {
    match FindTrip(s, destination, time)
    case None => Consulted(NoTrip, s)
    case Some(id) =>
      var line := s.lines[id];
      if date !in line.seats then Consulted(DateOutOfRange(id), s)
      else if Accepts(answer) then
        var r := Reserve(s, id, date, seatInput);
        Consulted(Shown(id, line.seats[date], Some(r.outcome)), r.store)
      else Consulted(Shown(id, line.seats[date], None), s)
  }

  /** When the first line making the trip has no seat list for the date, the
      query is rejected even if a later line making the same trip has one. */
  lemma ConsultChecksOnlyFirstMatch(s: Store, destination: string, time: string, date: Day,
                                    answer: string, seatInput: string, first: nat, later: nat)
    requires WellFormed(s) && first < later < |s.order|
    requires forall j :: 0 <= j < first ==> !Departs(s.lines[s.order[j]], destination, time)
    requires Departs(s.lines[s.order[first]], destination, time)
    requires Departs(s.lines[s.order[later]], destination, time)
    requires date !in s.lines[s.order[first]].seats && date in s.lines[s.order[later]].seats
    ensures ConsultSeats(s, destination, time, date, answer, seatInput) == Consulted(DateOutOfRange(s.order[first]), s)
  {
    IndexOfNoDup(s.order, first);
    var found := FindTrip(s, destination, time);
    assert found.Some?;
    var k := IndexOf(s.order, found.value);
    assert k >= first;
    assert k <= first;
  }

  /** In a store satisfying the invariant every line has a seat list for
      exactly the window dates, so the seat query answers "out of range"
      exactly when some line makes the trip and the date lies outside the
      window. */
  lemma ConsultOutOfRange(s: Store, destination: string, time: string, date: Day,
                          answer: string, seatInput: string)
    requires Valid(s)
    ensures ConsultSeats(s, destination, time, date, answer, seatInput).query.DateOutOfRange?
            <==> FindTrip(s, destination, time).Some? && date !in s.window
  {
    var found := FindTrip(s, destination, time);
    if found.Some? {
      assert LineValid(s, found.value);
    }
  }

  datatype TripBooking = TripBooking(outcome: Option<ReserveOutcome>, store: Store)

  /** The reservation menu entry: the first line making the trip gets the
      reservation attempt with the date unchecked; when no line makes it,
      nothing happens. */
  function ReserveByTrip(s: Store, destination: string, time: string, date: Day, seatInput: string): (r: TripBooking)
    requires WellFormed(s)
    ensures r.outcome.None? <==> forall id :: id in s.lines ==> !Departs(s.lines[id], destination, time)
    ensures r.outcome.None? ==> r.store == s
    ensures r.outcome.Some? ==> FindTrip(s, destination, time).Some?
    ensures r.outcome.Some? ==>
              Reserved(r.outcome.value, r.store) == Reserve(s, FindTrip(s, destination, time).value, date, seatInput)
  {
    match FindTrip(s, destination, time)
    case None => TripBooking(None, s)
    case Some(id) =>
      var r := Reserve(s, id, date, seatInput);
      TripBooking(Some(r.outcome), r.store)
  }
}

=== FILE: dates.dfy ===
/** The reservation date window: the 30 consecutive days starting today.
    A date is a day ordinal; its printed day/month/year form is not modelled. */
module Dates {

  type Day = int

  /** Number of days, today included, on which seats can be reserved. */
  const WindowLength: nat := 30

  /** Consecutive days: each entry is the day after the previous one. */
  ghost predicate Consecutive(days: seq<Day>) {
    forall i :: 0 <= i < |days| - 1 ==> days[i + 1] == days[i] + 1
  }

  /** The window as a value: day `today + i` at position `i`. */
  function Window(today: Day): seq<Day> {
    seq(WindowLength, i => today + i)
  }

  /** Builds the window as `carregar_datas` does, appending `today + i` for
      `i` in `0..29`; the result has 30 entries, starts today and goes up one
      day at a time. */
  method LoadDates(today: Day) returns (dates: seq<Day>)
    ensures |dates| == WindowLength
    ensures |dates| > 0 && dates[0] == today
    ensures Consecutive(dates)
    ensures dates == Window(today)
  {
    dates := [];
    for i := 0 to WindowLength
      invariant |dates| == i
      invariant forall k :: 0 <= k < i ==> dates[k] == today + k
    {
      dates := dates + [today + i];
    }
  }

  /** The window is strictly increasing, and a day belongs to it exactly when
      it is one of the 30 days from today on. */
  lemma WindowMembership(today: Day, d: Day)
    ensures forall i, j :: 0 <= i < j < |Window(today)| ==> Window(today)[i] < Window(today)[j]
    ensures d in Window(today) <==> today <= d < today + WindowLength
  {
    var w := Window(today);
    if today <= d < today + WindowLength {
      assert w[d - today] == d;
    }
  }
}

=== FILE: inventory.dfy ===
/** The in-memory state of the reservation system: the bus lines in
    insertion order, the ledger of reservations made during the run and the
    log of failed attempts, together with the seat-partition invariant that
    ties free-seat lists to the ledger. */
module Inventory {
  import opened Lists
  import opened Dates

  type LineId = int

  /** A fare in whole cents. */
  type Fare = int

  /** Seats per bus, numbered 1..20. */
  const SeatsPerTrip: nat := 20

  /** Python's `list(range(lo, hi))`. */
  function Range(lo: int, hi: int): (r: seq<int>)
    ensures |r| == if lo < hi then hi - lo else 0
    ensures forall i :: 0 <= i < |r| ==> r[i] == lo + i
    decreases hi - lo
  {
    if lo >= hi then [] else [lo] + Range(lo + 1, hi)
  }

  /** The free-seat list of an untouched trip: 1..20 ascending. */
  function AllSeats(): seq<int> {
    Range(1, SeatsPerTrip + 1)
  }

  /** A fresh seat list holds each seat 1..20 exactly once, in order. */
  lemma AllSeatsShape()
    ensures |AllSeats()| == SeatsPerTrip
    ensures Ascending(AllSeats())
    ensures forall n :: n in AllSeats() <==> 1 <= n <= SeatsPerTrip
  {
    var a := AllSeats();
    forall n | 1 <= n <= SeatsPerTrip
      ensures n in a
    {
      assert a[n - 1] == n;
    }
  }

  /** A bus line: route, departure time, fare and, per date of the window,
      the seats still free on that date's trip. */
  datatype Line = Line(origin: string, destination: string, time: string, fare: Fare,
                       seats: map<Day, seq<int>>)

  /** A successful reservation, with the fare the line had when it was made. */
  datatype Reservation = Reservation(line: LineId, date: Day, seat: int, fare: Fare)

  /** A failed reservation attempt as the failure log records it. */
  datatype FailedAttempt = FailedAttempt(line: LineId, date: Day, seat: int, reason: string)

  /** The whole state: the date window, the line ids in insertion order (the
      iteration order of the program's `linhas` dict), the lines, the reservation
      ledger and the failure log, both append-only. */
  datatype Store = Store(window: seq<Day>, order: seq<LineId>, lines: map<LineId, Line>,
                         ledger: seq<Reservation>, failures: seq<FailedAttempt>)

  /** Seat availability of a line that has just been loaded or registered:
      every window date maps to all 20 seats, and no other date is present. */
  function FreshSeats(window: seq<Day>): map<Day, seq<int>> {
    map d | d in window :: AllSeats()
  }

  function EmptyStore(window: seq<Day>): Store {
    Store(window, [], map[], [], [])
  }

  /** The shape of a Python dict: each key listed once in the iteration
      order, and the order lists exactly the keys. */
  ghost predicate WellFormed(s: Store) {
    && NoDup(s.order)
    && (forall id :: id in s.lines ==> id in s.order)
    && (forall k :: 0 <= k < |s.order| ==> s.order[k] in s.lines)
  }

  /** Python's `linhas[id] = line`: a new key goes to the end of the
      iteration order, an existing key keeps its place and takes the new
      value. */
  function Put(s: Store, id: LineId, line: Line): (r: Store)
    requires WellFormed(s)
    ensures WellFormed(r)
    ensures r.lines == s.lines[id := line]
    ensures r.order == if id in s.lines then s.order else s.order + [id]
    ensures r.window == s.window && r.ledger == s.ledger && r.failures == s.failures
  {
    if id in s.lines then s.(lines := s.lines[id := line])
    else s.(order := s.order + [id], lines := s.lines[id := line])
  }

  /** The seats the ledger holds for one trip (a line on a date), counted
      with multiplicity. */
  function Taken(ledger: seq<Reservation>, id: LineId, date: Day): multiset<int> {
    if ledger == [] then multiset{}
    else
      var e := ledger[|ledger| - 1];
      Taken(ledger[..|ledger| - 1], id, date)
        + if e.line == id && e.date == date then multiset{e.seat} else multiset{}
  }

  /** One trip's seats are split between its free list and the ledger:
      every seat 1..20 is either free or reserved once, never both, nothing
      else appears, and the free list stays ascending. */
  ghost predicate SeatsPartitioned(free: seq<int>, taken: multiset<int>) {
    && Ascending(free)
    && multiset(free) + taken == multiset(AllSeats())
  }

  /** A line has seat lists for exactly the window dates, each partitioned
      against the ledger. */
  ghost predicate LineValid(s: Store, id: LineId)
    requires id in s.lines
  {
    var line := s.lines[id];
    && (forall d :: d in line.seats <==> d in s.window)
    && (forall d :: d in line.seats ==> SeatsPartitioned(line.seats[d], Taken(s.ledger, id, d)))
  }

  /** A ledger entry refers to an existing line, a window date of it, and
      carries that line's fare. */
  ghost predicate EntryValid(s: Store, e: Reservation) {
    && e.line in s.lines
    && e.date in s.lines[e.line].seats
    && e.fare == s.lines[e.line].fare
  }

  /** The bookkeeping invariant of a run. */
  ghost predicate Valid(s: Store) {
    && WellFormed(s)
    && (forall id :: id in s.lines ==> LineValid(s, id))
    && (forall i :: 0 <= i < |s.ledger| ==> EntryValid(s, s.ledger[i]))
  }

  /** A store whose lines all carry fresh seats and whose ledger is empty,
      as after loading, satisfies the invariant. */
  lemma FreshStoreValid(s: Store)
    requires WellFormed(s) && s.ledger == []
    requires forall id :: id in s.lines ==> s.lines[id].seats == FreshSeats(s.window)
    ensures Valid(s)
  {
    AllSeatsShape();
  }

  /** Ledger entries for other trips do not count towards a trip. */
  lemma {:induction false} TakenNone(ledger: seq<Reservation>, id: LineId, date: Day)
    requires forall i :: 0 <= i < |ledger| ==> ledger[i].line != id
    ensures Taken(ledger, id, date) == multiset{}
  {
    if ledger != [] {
      TakenNone(ledger[..|ledger| - 1], id, date);
    }
  }

  /** Appending an entry adds its seat to its own trip only. */
  lemma TakenAppend(ledger: seq<Reservation>, e: Reservation, id: LineId, date: Day)
    ensures Taken(ledger + [e], id, date)
            == Taken(ledger, id, date) + if e.line == id && e.date == date then multiset{e.seat} else multiset{}
  {
    assert (ledger + [e])[..|ledger|] == ledger;
  }

  /** A ledger entry's seat is counted for its trip. */
  lemma {:induction false} TakenHas(ledger: seq<Reservation>, i: nat)
    requires i < |ledger|
    ensures Taken(ledger, ledger[i].line, ledger[i].date)[ledger[i].seat] >= 1
    decreases |ledger|
  {
    var m := |ledger| - 1;
    if i < m {
      TakenHas(ledger[..m], i);
      assert ledger[..m][i] == ledger[i];
    }
  }

  /** Two ledger entries for the same seat of the same trip count twice. */
  lemma {:induction false} TakenTwice(ledger: seq<Reservation>, i: nat, j: nat)
    requires i < j < |ledger|
    requires ledger[i].line == ledger[j].line && ledger[i].date == ledger[j].date
    requires ledger[i].seat == ledger[j].seat
    ensures Taken(ledger, ledger[i].line, ledger[i].date)[ledger[i].seat] >= 2
    decreases |ledger|
  {
    var m := |ledger| - 1;
    var prefix := ledger[..m];
    assert prefix[i] == ledger[i];
    if j < m {
      assert prefix[j] == ledger[j];
      TakenTwice(prefix, i, j);
    } else {
      TakenHas(prefix, i);
    }
  }

  /** What the invariant buys: for every trip, a seat in 1..20 is reserved
      exactly when it is not free, no seat outside 1..20 is ever reserved,
      and no seat is reserved twice. */
  lemma SeatAccounting(s: Store, id: LineId, d: Day, n: int)
    requires Valid(s) && id in s.lines && d in s.lines[id].seats
    ensures n in s.lines[id].seats[d] ==> Taken(s.ledger, id, d)[n] == 0
    ensures 1 <= n <= SeatsPerTrip && n !in s.lines[id].seats[d] ==> Taken(s.ledger, id, d)[n] == 1
    ensures !(1 <= n <= SeatsPerTrip) ==> Taken(s.ledger, id, d)[n] == 0 && n !in s.lines[id].seats[d]
  {
    var free := s.lines[id].seats[d];
    var taken := Taken(s.ledger, id, d);
    assert LineValid(s, id);
    assert multiset(free) + taken == multiset(AllSeats());
    AllSeatsCount(n);
    var total := multiset(AllSeats())[n];
    assert multiset(free)[n] + taken[n] == total;
    assert n in free <==> multiset(free)[n] > 0;
  }

  /** Each seat number 1..20 occurs once among all seats, others never. */
  lemma AllSeatsCount(n: int)
    ensures multiset(AllSeats())[n] == if 1 <= n <= SeatsPerTrip then 1 else 0
  {
    AllSeatsShape();
    if 1 <= n <= SeatsPerTrip {
      var k := n - 1;
      assert AllSeats() == AllSeats()[..k] + [n] + AllSeats()[k + 1..];
      assert n !in AllSeats()[..k] && n !in AllSeats()[k + 1..];
    }
  }

  /** No two ledger entries claim the same seat of the same trip. */
  lemma ReservedAtMostOnce(s: Store)
    requires Valid(s)
    ensures forall i, j ::
              (0 <= i < j < |s.ledger| && s.ledger[i].line == s.ledger[j].line && s.ledger[i].date == s.ledger[j].date)
              ==> s.ledger[i].seat != s.ledger[j].seat
  {
    forall i, j | 0 <= i < j < |s.ledger| && s.ledger[i].line == s.ledger[j].line
                  && s.ledger[i].date == s.ledger[j].date
      ensures s.ledger[i].seat != s.ledger[j].seat
    {
      var e := s.ledger[i];
      assert EntryValid(s, e);
      if e.seat == s.ledger[j].seat {
        TakenTwice(s.ledger, i, j);
        SeatAccounting(s, e.line, e.date, e.seat);
      }
    }
  }
}

=== FILE: lists.dfy ===
/** Facts about Python list operations the bookkeeping relies on, stated over
    Dafny sequences. */
module Lists {

  /** No value occurs twice (the keys of a dict, a free-seat list). */
  ghost predicate NoDup<T>(xs: seq<T>) {
    forall i, j :: 0 <= i < j < |xs| ==> xs[i] != xs[j]
  }

  /** Sorted ascending with no repeated value. */
  ghost predicate Ascending(xs: seq<int>) {
    forall i, j :: 0 <= i < j < |xs| ==> xs[i] < xs[j]
  }

  /** Position of the first occurrence of `x`, as Python's `list.index`. */
  function IndexOf<T(==)>(xs: seq<T>, x: T): (k: nat)
    requires x in xs
    ensures k < |xs| && xs[k] == x
    ensures forall j :: 0 <= j < k ==> xs[j] != x
  {
    if xs[0] == x then 0 else 1 + IndexOf(xs[1..], x)
  }

  /** Python's `list.remove`: drops the first occurrence of `x`.
      `fazer_reserva` only calls it after checking membership, so `x in xs`
      is required. */
  function Remove<T(==)>(xs: seq<T>, x: T): (r: seq<T>)
    requires x in xs
    ensures r == xs[..IndexOf(xs, x)] + xs[IndexOf(xs, x) + 1..]
    ensures |r| == |xs| - 1
    ensures multiset(r) == multiset(xs) - multiset{x}
  {
    var k := IndexOf(xs, x);
    var r := xs[..k] + xs[k + 1..];
    assert xs == xs[..k] + [x] + xs[k + 1..];
    assert multiset(xs) == multiset(xs[..k]) + multiset{x} + multiset(xs[k + 1..]);
    r
  }

  /** Python's `max` over a non-empty collection of integers. */
  function Max(xs: seq<int>): (m: int)
    requires |xs| > 0
    ensures m in xs
    ensures forall i :: 0 <= i < |xs| ==> xs[i] <= m
  {
    if |xs| == 1 then xs[0]
    else
      var t := Max(xs[1..]);
      if xs[0] >= t then xs[0] else t
  }

  /** Removing a value from an ascending list leaves it ascending and without
      that value. */
  lemma RemoveKeepsAscending(xs: seq<int>, x: int)
    requires Ascending(xs) && x in xs
    ensures Ascending(Remove(xs, x))
    ensures x !in Remove(xs, x)
  {
    var k := IndexOf(xs, x);
    var r := Remove(xs, x);
    assert forall i :: 0 <= i < |r| ==> r[i] == (if i < k then xs[i] else xs[i + 1]);
  }

  /** The first occurrence of a value in a prefix is its first occurrence in
      the whole list. */
  lemma IndexOfPrefix<T>(xs: seq<T>, n: nat, x: T)
    requires n <= |xs| && x in xs[..n]
    ensures IndexOf(xs, x) == IndexOf(xs[..n], x)
  {
    var k := IndexOf(xs[..n], x);
    var i := IndexOf(xs, x);
    assert xs[k] == x;
    assert i <= k;
    assert xs[..n][i] == xs[i];
  }

  /** In a list with no repetitions, every element's first occurrence is its
      only position. */
  lemma IndexOfNoDup<T>(xs: seq<T>, k: nat)
    requires NoDup(xs) && k < |xs|
    ensures IndexOf(xs, xs[k]) == k
  {
  }

  /** A value absent from the first `n` elements that sits at position `n`
      first occurs there. */
  lemma IndexOfFresh<T>(xs: seq<T>, n: nat)
    requires n < |xs| && xs[n] !in xs[..n]
    ensures IndexOf(xs, xs[n]) == n
  {
  }

  /** The distinct elements of `xs`, each where it first occurs: the order in
      which a dictionary keeps keys assigned in the order of `xs`. */
  function FirstOccurrences(xs: seq<int>): (r: seq<int>)
    ensures NoDup(r)
    ensures forall x :: x in r <==> x in xs
    ensures forall i, j :: 0 <= i < j < |r| ==>
              r[i] in xs && r[j] in xs && IndexOf(xs, r[i]) < IndexOf(xs, r[j])
  {
    if xs == [] then []
    else
      var n := |xs| - 1;
      var rest := FirstOccurrences(xs[..n]);
      assert forall x :: x in xs <==> x in xs[..n] || x == xs[n];
      forall x | x in xs[..n]
        ensures IndexOf(xs, x) == IndexOf(xs[..n], x) < n
      {
        IndexOfPrefix(xs, n, x);
      }
      if xs[n] in xs[..n] then rest
      else
        IndexOfFresh(xs, n);
        rest + [xs[n]]
  }
}

=== FILE: records.dfy ===
/** The lines file and the failure log as text: the record `salvar_linhas`
    writes for each line, the parsing `carregar_linhas` applies to each
    record, and the entry `salvar_reserva_falha` appends. */
module Records {
  import opened Wrappers
  import opened Lists
  import opened Text
  import opened Dates
  import opened Inventory

  /** The five fields of a line's record, in file order. */
  function RecordFields(id: LineId, line: Line): seq<string> {
    [IntText(id), line.origin, line.destination, line.time, FareText(line.fare)]
  }

  /** One record of the lines file: `id;origin;destination;time;fare` and a
      newline. Seat availability is not written. */
  function RecordText(id: LineId, line: Line): string {
    Join(RecordFields(id, line), ';') + "\n"
  }

  /** The whole lines file, one record per line in insertion order. */
  function SaveRecords(s: Store): (records: seq<string>)
    requires WellFormed(s)
    ensures |records| == |s.order|
    ensures forall k :: 0 <= k < |s.order| ==>
              s.order[k] in s.lines && records[k] == RecordText(s.order[k], s.lines[s.order[k]])
  {
    seq(|s.order|, k requires 0 <= k < |s.order| => RecordText(s.order[k], s.lines[s.order[k]]))
  }

  /** The metadata of a line read back from a record. */
  datatype Row = Row(id: LineId, origin: string, destination: string, time: string, fare: Fare)

  /** Which conversion of a five-field record raised ValueError. */
  datatype FieldError = NotAFare | NotAnId

  /** A record is skipped (not five fields), parsed, or aborts loading. */
  datatype RecordParse = Skipped | Parsed(row: Row) | Malformed(error: FieldError)

  /** Loading stopped at record `record` (0-based) with an uncaught ValueError. */
  datatype LoadError = LoadError(record: nat, error: FieldError)

  /** Reads one raw record: strip it, split it on `;`, and convert its
      fields. */
  function ParseRecord(raw: string): (r: RecordParse)
    ensures r.Skipped? <==> |Split(Strip(raw), ';')| != 5
    ensures r.Parsed? ==> ';' !in r.row.origin && ';' !in r.row.destination && ';' !in r.row.time
    ensures r.Parsed? ==> PyInt(Split(Strip(raw), ';')[0]) == Some(r.row.id)
    ensures r.Parsed? ==> PyFare(Split(Strip(raw), ';')[4]) == Some(r.row.fare)
    ensures r.Malformed? && r.error == NotAnId ==> PyFare(Split(Strip(raw), ';')[4]).Some?
    ensures var f := Split(Strip(raw), ';');
            r.Parsed? ==> r.row.origin == f[1] && r.row.destination == f[2] && r.row.time == f[3]
    ensures var f := Split(Strip(raw), ';');
            |f| == 5 ==> (r == Malformed(NotAFare) <==> PyFare(f[4]).None?)
    ensures var f := Split(Strip(raw), ';');
            |f| == 5 ==> (r.Parsed? <==> PyFare(f[4]).Some? && PyInt(f[0]).Some?)
  {
    ParseFields(Split(Strip(raw), ';'))
  }

  /** A record is skipped unless it has exactly five fields; then the fare
      is converted first, as Python evaluates the right-hand side of the
      assignment before the subscript holding `int(id)`, and then the id. */
  function ParseFields(fields: seq<string>): RecordParse {
    if |fields| != 5 then Skipped
    else
      match (PyFare(fields[4]), PyInt(fields[0]))
      case (None, _) => Malformed(NotAFare)
      case (Some(_), None) => Malformed(NotAnId)
      case (Some(fare), Some(id)) => Parsed(Row(id, fields[1], fields[2], fields[3], fare))
  }

  /** The line a parsed record becomes: its metadata and fresh seats for
      every window date. */
  function LineOf(row: Row, window: seq<Day>): Line {
    Line(row.origin, row.destination, row.time, row.fare, FreshSeats(window))
  }

  /** Every raw record of the file, parsed. */
  function ParseAll(raws: seq<string>): (items: seq<RecordParse>)
    ensures |items| == |raws|
    ensures forall k :: 0 <= k < |raws| ==> items[k] == ParseRecord(raws[k])
  {
    seq(|raws|, k requires 0 <= k < |raws| => ParseRecord(raws[k]))
  }

  /** `carregar_linhas`: loads the records of the lines file in order into
      an empty store. */
  function LoadRecords(raws: seq<string>, window: seq<Day>): (r: Result<Store, LoadError>)
    ensures raws == [] ==> r == Ok(EmptyStore(window))
    ensures r.Ok? <==> forall k :: 0 <= k < |raws| ==> !ParseRecord(raws[k]).Malformed?
    ensures r.Err? ==> r.error.record < |raws| && ParseRecord(raws[r.error.record]) == Malformed(r.error.error)
    ensures r.Err? ==> forall k :: 0 <= k < r.error.record ==> !ParseRecord(raws[k]).Malformed?
    ensures r.Ok? ==> WellFormed(r.value) && r.value.window == window && r.value.ledger == [] && r.value.failures == []
    ensures r.Ok? ==> forall id :: id in r.value.lines <==>
              exists k :: 0 <= k < |raws| && ParseRecord(raws[k]).Parsed? && ParseRecord(raws[k]).row.id == id
    ensures r.Ok? ==> r.value.order == FirstOccurrences(ParsedIds(ParseAll(raws)))
  {
    var items := ParseAll(raws);
    LoadFailsAtFirstMalformed(items, window);
    var r := LoadParsed(items, window);
    if r.Ok? then
      LoadedLines(items, window);
      r
    else r
  }

  /** Loads parsed records in file order into an empty store. The first
      malformed record aborts loading; otherwise every line has fresh seats,
      and the ledger and failure log are empty. */
  function LoadParsed(items: seq<RecordParse>, window: seq<Day>): (r: Result<Store, LoadError>)
    ensures r.Ok? ==> WellFormed(r.value) && r.value.window == window
    ensures r.Ok? ==> r.value.ledger == [] && r.value.failures == []
    ensures r.Ok? ==> forall id :: id in r.value.lines ==> r.value.lines[id].seats == FreshSeats(window)
    decreases |items|
  {
    if items == [] then
      Ok(EmptyStore(window))
    else
      var n := |items| - 1;
      match LoadParsed(items[..n], window)
      case Err(e) => Err(e)
      case Ok(s) =>
        match items[n]
        case Skipped => Ok(s)
        case Malformed(e) => Err(LoadError(n, e))
        case Parsed(row) => Ok(Put(s, row.id, LineOf(row, window)))
  }

  /** A loaded store satisfies the bookkeeping invariant. */
  lemma LoadedStoreValid(raws: seq<string>, window: seq<Day>)
    requires LoadRecords(raws, window).Ok?
    ensures Valid(LoadRecords(raws, window).value)
  {
    FreshStoreValid(LoadRecords(raws, window).value);
  }

  /** Loading fails exactly when some record has five fields but a fare or
      id that does not convert, and then it reports the first such record. */
  lemma {:induction false} LoadFailsAtFirstMalformed(items: seq<RecordParse>, window: seq<Day>)
    ensures LoadParsed(items, window).Ok? <==> forall k :: 0 <= k < |items| ==> !items[k].Malformed?
    ensures LoadParsed(items, window).Err? ==>
              var e := LoadParsed(items, window).error;
              && e.record < |items|
              && items[e.record] == Malformed(e.error)
              && forall k :: 0 <= k < e.record ==> !items[k].Malformed?
    decreases |items|
  {
    if items != [] {
      var n := |items| - 1;
      var prefix := items[..n];
      LoadFailsAtFirstMalformed(prefix, window);
      var r := LoadParsed(prefix, window);
      if r.Err? {
        assert LoadParsed(items, window) == r;
        assert prefix[r.error.record] == items[r.error.record];
        forall k | 0 <= k < r.error.record
          ensures !items[k].Malformed?
        {
          assert prefix[k] == items[k];
        }
      } else if items[n].Malformed? {
        assert LoadParsed(items, window) == Err(LoadError(n, items[n].error));
        forall k | 0 <= k < n
          ensures !items[k].Malformed?
        {
          assert prefix[k] == items[k];
        }
      } else {
        assert LoadParsed(items, window).Ok?;
        forall k | 0 <= k < |items|
          ensures !items[k].Malformed?
        {
          if k < n {
            assert prefix[k] == items[k];
          }
        }
      }
    }
  }

  /** Records that do not have exactly five fields are ignored. */
  lemma LoadSkipsOtherFieldCounts(raws: seq<string>, raw: string, window: seq<Day>)
    requires |Split(Strip(raw), ';')| != 5
    ensures LoadRecords(raws + [raw], window) == LoadRecords(raws, window)
  {
    var items := ParseAll(raws + [raw]);
    assert items[..|raws|] == ParseAll(raws);
    assert items[|raws|] == Skipped;
    assert LoadParsed(items, window) == LoadParsed(items[..|raws|], window);
  }

  /** A five-field record with a valid fare and id is added under its id: a
      new id is appended to the order, a known id keeps its position and its
      line is replaced. */
  lemma LoadAddsRecord(items: seq<RecordParse>, window: seq<Day>, s: Store, row: Row)
    requires LoadParsed(items, window) == Ok(s)
    ensures LoadParsed(items + [Parsed(row)], window) == Ok(Put(s, row.id, LineOf(row, window)))
    ensures LoadParsed(items + [Parsed(row)], window).value.lines == s.lines[row.id := LineOf(row, window)]
    ensures LoadParsed(items + [Parsed(row)], window).value.order
            == if row.id in s.lines then s.order else s.order + [row.id]
  {
    assert (items + [Parsed(row)])[..|items|] == items;
  }

  /** The line loaded for an id comes from the last record carrying that id. */
  lemma {:induction false} LastRecordWins(pre: seq<RecordParse>, row: Row, post: seq<RecordParse>, window: seq<Day>)
    requires forall k :: 0 <= k < |post| ==> !(post[k].Parsed? && post[k].row.id == row.id)
    requires LoadParsed(pre + [Parsed(row)] + post, window).Ok?
    ensures row.id in LoadParsed(pre + [Parsed(row)] + post, window).value.lines
    ensures LoadParsed(pre + [Parsed(row)] + post, window).value.lines[row.id] == LineOf(row, window)
  {
    var all := pre + [Parsed(row)] + post;
    assert all[|pre|] == Parsed(row);
    forall k | |pre| < k < |all|
      ensures !(all[k].Parsed? && all[k].row.id == row.id)
    {
      assert all[k] == post[k - |pre| - 1];
    }
    LastParsedWins(all, |pre|, window);
  }

  /** The same fact about a position in the record list: a parsed record
      that no later parsed record shares an id with sets its line. */
  lemma {:induction false} LastParsedWins(items: seq<RecordParse>, i: nat, window: seq<Day>)
    requires i < |items| && items[i].Parsed?
    requires forall k :: i < k < |items| ==> !(items[k].Parsed? && items[k].row.id == items[i].row.id)
    requires LoadParsed(items, window).Ok?
    ensures items[i].row.id in LoadParsed(items, window).value.lines
    ensures LoadParsed(items, window).value.lines[items[i].row.id] == LineOf(items[i].row, window)
    decreases |items|
  {
    var n := |items| - 1;
    LoadStepLines(items, window);
    if i < n {
      var prefix := items[..n];
      assert prefix[i] == items[i];
      assert forall k :: i < k < n ==> prefix[k] == items[k];
      LastParsedWins(prefix, i, window);
    }
  }

  /** One step of loading: the prefix loads, and the last record, when
      parsed, sets its own line and no other. */
  lemma LoadStepLines(items: seq<RecordParse>, window: seq<Day>)
    requires items != [] && LoadParsed(items, window).Ok?
    ensures LoadParsed(items[..|items| - 1], window).Ok?
    ensures var prefix := LoadParsed(items[..|items| - 1], window).value.lines;
            var last := items[|items| - 1];
            LoadParsed(items, window).value.lines ==
              if last.Parsed? then prefix[last.row.id := LineOf(last.row, window)] else prefix
  {
  }

  /** The ids of the parsed records, in file order, repeats kept. */
  function ParsedIds(items: seq<RecordParse>): (ids: seq<LineId>)
    ensures forall id :: id in ids <==>
              exists k :: 0 <= k < |items| && items[k].Parsed? && items[k].row.id == id
  {
    if items == [] then []
    else
      var n := |items| - 1;
      var rest := ParsedIds(items[..n]);
      assert forall k :: 0 <= k < n ==> items[..n][k] == items[k];
      if items[n].Parsed? then rest + [items[n].row.id] else rest
  }

  /** A successful load holds a line for exactly the ids some parsed record
      carries, and lists them where each first occurs in the file: a later
      record with a known id replaces its line but keeps its position. */
  lemma {:induction false} LoadedLines(items: seq<RecordParse>, window: seq<Day>)
    requires LoadParsed(items, window).Ok?
    ensures forall id :: id in LoadParsed(items, window).value.lines <==> id in ParsedIds(items)
    ensures LoadParsed(items, window).value.order == FirstOccurrences(ParsedIds(items))
    decreases |items|
  {
    if items != [] {
      var n := |items| - 1;
      LoadedLines(items[..n], window);
      var ids := ParsedIds(items[..n]);
      if items[n].Parsed? {
        var all := ids + [items[n].row.id];
        assert ParsedIds(items) == all;
        assert all[..|ids|] == ids;
      }
    }
  }

  /** A field `salvar_linhas` can write and `carregar_linhas` read back
      unchanged: no field separator and neither of the characters the
      file reader treats as line ends (`\n`, and `\r` alone or before `\n`). */
  predicate SafeField(f: string) {
    ';' !in f && '\n' !in f && '\r' !in f
  }

  /** Every line's text fields are safe. */
  ghost predicate Saveable(s: Store) {
    forall id :: id in s.lines ==>
      SafeField(s.lines[id].origin) && SafeField(s.lines[id].destination) && SafeField(s.lines[id].time)
  }

  lemma IntTextShape(i: int)
    ensures |IntText(i)| >= 1 && !IsSpace(IntText(i)[0])
    ensures ';' !in IntText(i)
  {
    IntTextNumeral(i);
  }

  lemma FareTextShape(cents: int)
    ensures |FareText(cents)| >= 1 && !IsSpace(FareText(cents)[|FareText(cents)| - 1])
    ensures ';' !in FareText(cents)
  {
    FareTextNumeral(cents);
  }

  /** The text of a record, once stripped and split, is its five fields. */
  lemma RecordFieldsRoundTrip(id: LineId, line: Line)
    requires SafeField(line.origin) && SafeField(line.destination) && SafeField(line.time)
    ensures Split(Strip(RecordText(id, line)), ';') == RecordFields(id, line)
  {
    IntTextShape(id);
    FareTextShape(line.fare);
    SplitStripJoin(RecordFields(id, line), ';');
  }

  /** Reading back the record written for a line with safe text fields
      gives the same id, origin, destination, time and fare. */
  lemma RecordRoundTrip(id: LineId, line: Line)
    requires SafeField(line.origin) && SafeField(line.destination) && SafeField(line.time)
    ensures ParseRecord(RecordText(id, line)) == Parsed(Row(id, line.origin, line.destination, line.time, line.fare))
  {
    RecordFieldsRoundTrip(id, line);
    PyIntRoundTrip(id);
    PyFareRoundTrip(line.fare);
  }

  /** The store the next run rebuilds from the saved lines file: the same
      lines in the same order with fresh seats, an empty ledger and an empty
      failure log. */
  function Reloaded(s: Store, window: seq<Day>): Store {
    Store(window, s.order, map id | id in s.lines :: s.lines[id].(seats := FreshSeats(window)), [], [])
  }

  /** The metadata a line's record carries. */
  function RowOf(id: LineId, line: Line): Row {
    Row(id, line.origin, line.destination, line.time, line.fare)
  }

  /** Every saved record parses back to its line's metadata. */
  lemma SavedRecordsParse(s: Store)
    requires WellFormed(s) && Saveable(s)
    ensures forall k :: 0 <= k < |s.order| ==>
              s.order[k] in s.lines && ParseAll(SaveRecords(s))[k] == Parsed(RowOf(s.order[k], s.lines[s.order[k]]))
  {
    forall k | 0 <= k < |s.order|
      ensures s.order[k] in s.lines && ParseAll(SaveRecords(s))[k] == Parsed(RowOf(s.order[k], s.lines[s.order[k]]))
    {
      RecordRoundTrip(s.order[k], s.lines[s.order[k]]);
    }
  }

  /** The store after loading the first `k` saved records. */
  function PartialReload(s: Store, k: nat, window: seq<Day>): Store
    requires WellFormed(s) && k <= |s.order|
  {
    Store(window, s.order[..k],
          map id | id in s.order[..k] :: s.lines[id].(seats := FreshSeats(window)), [], [])
  }

  /** Adding the next saved line to a partial reload extends it by one. */
  lemma PutNextReloaded(s: Store, window: seq<Day>, k: nat)
    requires WellFormed(s) && k < |s.order|
    ensures Put(PartialReload(s, k, window), s.order[k], LineOf(RowOf(s.order[k], s.lines[s.order[k]]), window))
            == PartialReload(s, k + 1, window)
  {
    var id := s.order[k];
    var line := s.lines[id];
    var partial := PartialReload(s, k, window);
    var reloaded := LineOf(RowOf(id, line), window);
    assert reloaded == line.(seats := FreshSeats(window));
    assert id !in partial.lines by {
      assert id !in s.order[..k];
    }
    var after := Put(partial, id, reloaded);
    var target := PartialReload(s, k + 1, window);
    assert s.order[..k] + [id] == s.order[..k + 1];
    assert after.order == target.order;
    ReloadedLinesStep(s, window, k);
  }

  /** The lines of the next partial reload: the previous ones plus the next
      saved id's line with fresh seats. */
  lemma ReloadedLinesStep(s: Store, window: seq<Day>, k: nat)
    requires WellFormed(s) && k < |s.order|
    ensures var id := s.order[k];
            PartialReload(s, k, window).lines[id := s.lines[id].(seats := FreshSeats(window))]
              == PartialReload(s, k + 1, window).lines
  {
    var id := s.order[k];
    var grown := PartialReload(s, k, window).lines[id := s.lines[id].(seats := FreshSeats(window))];
    var target := PartialReload(s, k + 1, window).lines;
    assert s.order[..k + 1] == s.order[..k] + [id];
    assert forall x :: x in s.order[..k + 1] <==> x in s.order[..k] || x == id;
    assert grown.Keys == target.Keys;
    forall x | x in grown.Keys
      ensures grown[x] == target[x]
    {
    }
  }

  lemma SaveLoadStep(s: Store, items: seq<RecordParse>, window: seq<Day>, k: nat)
    requires WellFormed(s) && k < |s.order| == |items|
    requires forall i :: 0 <= i < |s.order| ==> s.order[i] in s.lines && items[i] == Parsed(RowOf(s.order[i], s.lines[s.order[i]]))
    requires LoadParsed(items[..k], window) == Ok(PartialReload(s, k, window))
    ensures LoadParsed(items[..k + 1], window) == Ok(PartialReload(s, k + 1, window))
  {
    var id := s.order[k];
    var row := RowOf(id, s.lines[id]);
    assert items[..k + 1] == items[..k] + [Parsed(row)];
    LoadAddsRecord(items[..k], window, PartialReload(s, k, window), row);
    PutNextReloaded(s, window, k);
  }

  /** Loading the parsed records of a saved store rebuilds it. */
  lemma LoadSavedItems(s: Store, items: seq<RecordParse>, window: seq<Day>)
    requires WellFormed(s) && |items| == |s.order|
    requires forall i :: 0 <= i < |s.order| ==> s.order[i] in s.lines && items[i] == Parsed(RowOf(s.order[i], s.lines[s.order[i]]))
    ensures LoadParsed(items, window) == Ok(Reloaded(s, window))
  {
    assert items[..0] == [];
    assert PartialReload(s, 0, window) == EmptyStore(window);
    for k := 0 to |s.order|
      invariant LoadParsed(items[..k], window) == Ok(PartialReload(s, k, window))
    {
      SaveLoadStep(s, items, window, k);
    }
    assert items[..|s.order|] == items;
    ReloadComplete(s, window);
  }

  /** Saving the lines and loading them in the next run gives back every
      line's metadata in the original order, with seats rebuilt fresh. */
  lemma SaveLoadRoundTrip(s: Store, window: seq<Day>)
    requires WellFormed(s) && Saveable(s)
    ensures LoadRecords(SaveRecords(s), window) == Ok(Reloaded(s, window))
  {
    SavedRecordsParse(s);
    LoadSavedItems(s, ParseAll(SaveRecords(s)), window);
  }

  lemma ReloadComplete(s: Store, window: seq<Day>)
    requires WellFormed(s)
    ensures PartialReload(s, |s.order|, window) == Reloaded(s, window)
  {
    assert s.order[..|s.order|] == s.order;
    assert forall id :: id in s.order <==> id in s.lines;
  }

  /** The description of a failed attempt: `Linha i, Data d, Assento s`, with
      `d` the date's printed form. */
  function AttemptText(e: FailedAttempt, dateText: string): string {
    "Linha " + IntText(e.line) + ", Data " + dateText + ", Assento " + IntText(e.seat)
  }

  lemma AttemptTextShape(e: FailedAttempt, dateText: string)
    requires ';' !in dateText
    ensures |AttemptText(e, dateText)| >= 1 && !IsSpace(AttemptText(e, dateText)[0])
    ensures ';' !in AttemptText(e, dateText)
  {
    IntTextShape(e.line);
    IntTextShape(e.seat);
    var a := "Linha " + IntText(e.line);
    assert ';' !in a;
    var b := a + ", Data " + dateText;
    assert ';' !in b;
    var c := b + ", Assento " + IntText(e.seat);
    assert ';' !in c;
    assert c == AttemptText(e, dateText);
  }

  /** The failure-log entry: the description, `; Motivo: ` and the reason. */
  function FailureText(description: string, reason: string): string {
    description + "; Motivo: " + reason + "\n"
  }

  /** The log entry splits on `;` into the description and the reason, so
      both can be read back, when neither contains `;` itself. */
  lemma FailureTextFields(e: FailedAttempt, dateText: string)
    requires ';' !in dateText && ';' !in e.reason && e.reason != [] && !IsSpace(e.reason[|e.reason| - 1])
    ensures Split(Strip(FailureText(AttemptText(e, dateText), e.reason)), ';')
            == [AttemptText(e, dateText), " Motivo: " + e.reason]
  {
    AttemptTextShape(e, dateText);
    LogEntryFields(AttemptText(e, dateText), e.reason);
  }

  lemma LogEntryFields(desc: string, reason: string)
    requires |desc| >= 1 && !IsSpace(desc[0]) && ';' !in desc
    requires ';' !in reason && reason != [] && !IsSpace(reason[|reason| - 1])
    ensures Split(Strip(FailureText(desc, reason)), ';') == [desc, " Motivo: " + reason]
  {
    var tail := " Motivo: " + reason;
    var body := desc + ";" + tail;
    assert ';' !in tail;
    assert FailureText(desc, reason) == body + "\n" by {
      assert "; Motivo: " == ";" + " Motivo: ";
    }
    assert Join([desc, tail], ';') == body;
    assert body[0] == desc[0];
    assert body[|body| - 1] == reason[|reason| - 1];
    StripLine(body, "\n");
    SplitJoin([desc, tail], ';');
  }
}

=== FILE: session.dfy ===
/** A run of the program: start-up (the date window, then the lines file)
    followed by menu choices, each a transition of the store. The menu's
    text and the prompts are not modelled; a choice arrives with the
    answers the user types for it. */
module Session {
  import opened Wrappers
  import opened Text
  import opened Dates
  import opened Inventory
  import opened Records
  import opened Booking

  /** A menu choice with the answers given to its prompts.
      `RegisterLine` carries the value `float()` gives the typed fare, or
      None when it raises ValueError, which ends the program before the
      line is added. `Other` stands for the choices that leave the store
      alone (reading a reservations file, reports, an unknown option, and
      leaving the menu); `halts` says whether the choice ended the program.
      Leaving the menu ("Sair") is always `Other(true)`. Reading a
      reservations file ends it when the path cannot be opened as a file
      (a directory, say), when a row's seat field is not an integer, or
      when the file is not valid UTF-8. */
  datatype Command =
    | RegisterLine(origin: string, destination: string, time: string, fare: Option<Fare>)
    | ScheduleQuery(city: string)
    | SeatQuery(destination: string, time: string, date: Day, answer: string, seatInput: string)
    | TripReservation(destination: string, time: string, date: Day, seatInput: string)
    | Other(halts: bool)

  /** The store after a choice, and whether the program ended there: on a
      fare `float()` rejects, on a reservation reaching a date without a
      seat list, or on an uncaught error while reading a reservations
      file. */
  datatype Outcome = Outcome(store: Store, halted: bool)

  /** Start-up: the window starting `today`, then the lines file's records;
      an absent file is the empty sequence of records. */
  function Start(today: Day, raws: seq<string>): (r: Result<Store, LoadError>)
    ensures r.Ok? ==> Valid(r.value) && r.value.window == Window(today)
    ensures r.Ok? ==> r.value.ledger == [] && r.value.failures == []
    ensures raws == [] ==> r == Ok(EmptyStore(Window(today)))
  {
    var r := LoadRecords(raws, Window(today));
    if r.Ok? then
      LoadedStoreValid(raws, Window(today));
      r
    else r
  }

  /** Whether a reservation outcome ends the program. */
  predicate Halts(o: ReserveOutcome) {
    o.UnknownDate?
  }

  /** One menu choice. */
  function Step(s: Store, c: Command): (r: Outcome)
    requires WellFormed(s)
    ensures WellFormed(r.store)
    ensures r.halted ==> r.store == s
    ensures c.RegisterLine? ==> (r.halted <==> c.fare.None?)
    ensures c.Other? ==> r.halted == c.halts
    ensures c.ScheduleQuery? ==> !r.halted
    ensures c.ScheduleQuery? || c.Other? ==> r.store == s
    ensures c.SeatQuery? ==> !r.halted
    ensures c.TripReservation? ==>
              (r.halted <==>
                 && FindTrip(s, c.destination, c.time).Some?
                 && c.date !in s.lines[FindTrip(s, c.destination, c.time).value].seats
                 && PyInt(c.seatInput).Some?)
    ensures r.store.window == s.window
  {
    match c
    case RegisterLine(origin, destination, time, fare) =>
      if fare.None? then Outcome(s, true)
      else Outcome(Register(s, origin, destination, time, fare.value).store, false)
    case ScheduleQuery(_) => Outcome(s, false)
    case SeatQuery(destination, time, date, answer, seatInput) =>
      QueryStep(s, destination, time, date, answer, seatInput)
    case TripReservation(destination, time, date, seatInput) =>
      TripStep(s, destination, time, date, seatInput)
    case Other(halts) => Outcome(s, halts)
  }

  /** The seat query: its date is checked before any reservation, so it
      never ends the program. */
  function QueryStep(s: Store, destination: string, time: string, date: Day,
                     answer: string, seatInput: string): (r: Outcome)
    requires WellFormed(s)
    ensures WellFormed(r.store) && r.store.window == s.window
    ensures !r.halted
  {
    var q := ConsultSeats(s, destination, time, date, answer, seatInput);
    if q.query.Shown? && q.query.reservation.Some? then
      ReserveSavesSameRecords(s, q.query.id, date, seatInput);
      Outcome(q.store, Halts(q.query.reservation.value))
    else Outcome(q.store, false)
  }

  /** The reservation menu entry: the program ends when the matched line
      has no seat list for the date and the seat text is a number. */
  function TripStep(s: Store, destination: string, time: string, date: Day, seatInput: string): (r: Outcome)
    requires WellFormed(s)
    ensures WellFormed(r.store) && r.store.window == s.window
    ensures r.halted ==> r.store == s
    ensures r.halted <==>
              && FindTrip(s, destination, time).Some?
              && date !in s.lines[FindTrip(s, destination, time).value].seats
              && PyInt(seatInput).Some?
  {
    var b := ReserveByTrip(s, destination, time, date, seatInput);
    if b.outcome.Some? then
      ReserveSavesSameRecords(s, FindTrip(s, destination, time).value, date, seatInput);
      Outcome(b.store, Halts(b.outcome.value))
    else Outcome(b.store, false)
  }

  /** The choices in turn, stopping where the program ends. */
  function Run(s: Store, cmds: seq<Command>): (r: Outcome)
    requires WellFormed(s)
    ensures WellFormed(r.store)
    ensures r.store.window == s.window
    ensures cmds == [] ==> r == Outcome(s, false)
    decreases |cmds|
  {
    if cmds == [] then Outcome(s, false)
    else
      var o := Step(s, cmds[0]);
      if o.halted then o else Run(o.store, cmds[1..])
  }

  /** Every choice keeps the bookkeeping invariant. */
  lemma StepKeepsValid(s: Store, c: Command)
    requires Valid(s)
    ensures Valid(Step(s, c).store)
  {
    match c
    case RegisterLine(origin, destination, time, fare) =>
      if fare.Some? {
        RegisterKeepsValid(s, origin, destination, time, fare.value);
      }
    case ScheduleQuery(_) =>
    case SeatQuery(destination, time, date, answer, seatInput) =>
      var q := ConsultSeats(s, destination, time, date, answer, seatInput);
      if q.query.Shown? && q.query.reservation.Some? {
        ReserveKeepsValid(s, q.query.id, date, seatInput);
      }
    case TripReservation(destination, time, date, seatInput) =>
      var found := FindTrip(s, destination, time);
      if found.Some? {
        ReserveKeepsValid(s, found.value, date, seatInput);
      }
    case Other(_) =>
  }

  /** A whole run keeps the bookkeeping invariant. */
  lemma {:induction false} RunKeepsValid(s: Store, cmds: seq<Command>)
    requires Valid(s)
    ensures Valid(Run(s, cmds).store)
    decreases |cmds|
  {
    if cmds != [] {
      StepKeepsValid(s, cmds[0]);
      var o := Step(s, cmds[0]);
      if !o.halted {
        RunKeepsValid(o.store, cmds[1..]);
      }
    }
  }

  /** The invariant holds from start-up through any sequence of choices. */
  lemma SessionKeepsValid(today: Day, raws: seq<string>, cmds: seq<Command>)
    requires Start(today, raws).Ok?
    ensures Valid(Run(Start(today, raws).value, cmds).store)
  {
    RunKeepsValid(Start(today, raws).value, cmds);
  }

  /** `t` is a later state of `s`: no line disappears or changes its route,
      time or fare, no trip's free seats come back, and the ledger and the
      failure log only grow. */
  ghost predicate Extends(s: Store, t: Store) {
    && t.window == s.window
    && s.ledger <= t.ledger
    && s.failures <= t.failures
    && (forall id :: id in s.lines ==> id in t.lines && SameRoute(s.lines[id], t.lines[id]))
    && (forall id, d :: id in s.lines && d in s.lines[id].seats ==>
          id in t.lines && d in t.lines[id].seats &&
          multiset(t.lines[id].seats[d]) <= multiset(s.lines[id].seats[d]))
  }

  /** Two versions of a line with the same route, time, fare and dates. */
  predicate SameRoute(a: Line, b: Line) {
    && a.origin == b.origin && a.destination == b.destination
    && a.time == b.time && a.fare == b.fare
    && a.seats.Keys == b.seats.Keys
  }

  lemma ExtendsTransitive(s: Store, t: Store, u: Store)
    requires Extends(s, t) && Extends(t, u)
    ensures Extends(s, u)
  {
  }

  lemma ReserveExtends(s: Store, id: LineId, date: Day, seatInput: string)
    requires id in s.lines
    ensures Extends(s, Reserve(s, id, date, seatInput).store)
  {
    var r := Reserve(s, id, date, seatInput);
    if r.outcome.Confirmed? {
      ClaimExtends(s, r.store, id, date, r.outcome.seat);
    } else if r.outcome.SeatTaken? {
      assert r.store.lines == s.lines && r.store.ledger == s.ledger;
    }
  }

  lemma ClaimExtends(s: Store, t: Store, id: LineId, date: Day, n: int)
    requires id in s.lines && date in s.lines[id].seats
    requires Claimed(s, t, id, date, n)
    ensures Extends(s, t)
  {
    forall k, d | k in s.lines && d in s.lines[k].seats
      ensures k in t.lines && d in t.lines[k].seats
      ensures multiset(t.lines[k].seats[d]) <= multiset(s.lines[k].seats[d])
    {
      if k == id && d == date {
        var free := s.lines[id].seats[date];
        assert multiset(t.lines[id].seats[date]) == multiset(free) - multiset{n};
      }
    }
  }

  /** A choice never frees a seat, drops a line or shortens a log. */
  lemma StepExtends(s: Store, c: Command)
    requires WellFormed(s)
    ensures Extends(s, Step(s, c).store)
  {
    match c
    case RegisterLine(origin, destination, time, fare) =>
    case ScheduleQuery(_) =>
    case SeatQuery(destination, time, date, answer, seatInput) =>
      var q := ConsultSeats(s, destination, time, date, answer, seatInput);
      if q.query.Shown? && q.query.reservation.Some? {
        ReserveExtends(s, q.query.id, date, seatInput);
      }
    case TripReservation(destination, time, date, seatInput) =>
      var found := FindTrip(s, destination, time);
      if found.Some? {
        ReserveExtends(s, found.value, date, seatInput);
      }
    case Other(_) =>
  }

  /** Within a run a reservation is irreversible: no seat is freed again,
      and every ledger entry and logged failure stays. */
  lemma {:induction false} RunExtends(s: Store, cmds: seq<Command>)
    requires WellFormed(s)
    ensures Extends(s, Run(s, cmds).store)
    decreases |cmds|
  {
    if cmds != [] {
      StepExtends(s, cmds[0]);
      var o := Step(s, cmds[0]);
      if !o.halted {
        RunExtends(o.store, cmds[1..]);
        ExtendsTransitive(s, o.store, Run(o.store, cmds[1..]).store);
      }
    }
  }
}

=== FILE: text.dfy ===
/** The string handling the lines file relies on: Python's `str.strip()`,
    `str.split(";")`, `int()` on decimal text, `str()` of an integer, and the
    text of a fare held as whole cents. */
module Text {
  import opened Wrappers
  import opened Lists

  /** Python's `str.isspace()` for a single character. */
  predicate IsSpace(c: char) {
    || c == ' '
    || ('\t' <= c <= '\r')
    || ('\U{1c}' <= c <= '\U{1f}')
    || c == '\U{85}' || c == '\U{a0}' || c == '\U{1680}'
    || ('\U{2000}' <= c <= '\U{200a}')
    || c == '\U{2028}' || c == '\U{2029}' || c == '\U{202f}' || c == '\U{205f}' || c == '\U{3000}'
  }

  /** Drops leading whitespace. */
  function StripStart(s: string): (r: string)
    ensures |r| <= |s| && r == s[|s| - |r|..]
    ensures forall i :: 0 <= i < |s| - |r| ==> IsSpace(s[i])
    ensures r == [] || !IsSpace(r[0])
  {
    if s != [] && IsSpace(s[0]) then StripStart(s[1..]) else s
  }

  /** Drops trailing whitespace. */
  function StripEnd(s: string): (r: string)
    ensures |r| <= |s| && r == s[..|r|]
    ensures forall i :: |r| <= i < |s| ==> IsSpace(s[i])
    ensures r == [] || !IsSpace(r[|r| - 1])
  {
    if s != [] && IsSpace(s[|s| - 1]) then StripEnd(s[..|s| - 1]) else s
  }

  /** Python's `str.strip()` with no argument. */
  function Strip(s: string): string {
    StripEnd(StripStart(s))
  }

  /** Text with no whitespace at either end. */
  predicate Trimmed(r: string) {
    r == [] || (!IsSpace(r[0]) && !IsSpace(r[|r| - 1]))
  }

  /** `strip()` keeps the part of `s` from its first to its last non-space
      character, or nothing when there is none. */
  lemma StripSpan(s: string)
    ensures Strip(s) <= s[|s| - |StripStart(s)|..]
    ensures forall i :: 0 <= i < |s| && !IsSpace(s[i]) ==>
              |s| - |StripStart(s)| <= i < |s| - |StripStart(s)| + |Strip(s)|
    ensures Trimmed(Strip(s))
  {
    StripParts(s, StripStart(s), StripEnd(StripStart(s)));
  }

  /** `StripSpan` for any results of the two halves of `strip()`. */
  lemma StripParts(s: string, t: string, r: string)
    requires |t| <= |s| && t == s[|s| - |t|..]
    requires forall i :: 0 <= i < |s| - |t| ==> IsSpace(s[i])
    requires t == [] || !IsSpace(t[0])
    requires |r| <= |t| && r == t[..|r|]
    requires forall i :: |r| <= i < |t| ==> IsSpace(t[i])
    requires r == [] || !IsSpace(r[|r| - 1])
    ensures r <= s[|s| - |t|..]
    ensures forall i :: 0 <= i < |s| && !IsSpace(s[i]) ==> |s| - |t| <= i < |s| - |t| + |r|
    ensures Trimmed(r)
  {
    var k := |s| - |t|;
    assert r != [] ==> r[0] == t[0];
    forall i | 0 <= i < |s| && !IsSpace(s[i])
      ensures k <= i < k + |r|
    {
      if i >= k {
        assert s[i] == t[i - k];
      }
    }
  }

  /** Text that starts and ends with a non-space character loses only the
      trailing newline (and any other trailing whitespace) to `strip()`. */
  lemma StripLine(s: string, tail: string)
    requires s != [] && !IsSpace(s[0]) && !IsSpace(s[|s| - 1])
    requires forall i :: 0 <= i < |tail| ==> IsSpace(tail[i])
    ensures Strip(s + tail) == s
  {
    var t := StripStart(s + tail);
    assert t == s + tail;
    var r := StripEnd(t);
    assert !IsSpace(t[|s| - 1]);
    assert |r| >= |s|;
  }

  /** The fields joined with the separator between consecutive ones: the
      inverse of `Split`. */
  function Join(fields: seq<string>, sep: char): string
    requires |fields| >= 1
  {
    if |fields| == 1 then fields[0] else fields[0] + [sep] + Join(fields[1..], sep)
  }

  /** Python's `str.split(sep)` with a one-character separator: the pieces
      between separators, always at least one, none containing the separator,
      and joining them back gives the input. */
  function Split(s: string, sep: char): (r: seq<string>)
    ensures |r| >= 1
    ensures forall i :: 0 <= i < |r| ==> sep !in r[i]
    ensures Join(r, sep) == s
  {
    if s == [] then [[]]
    else
      var rest := Split(s[1..], sep);
      if s[0] == sep then
        assert ([[]] + rest)[1..] == rest;
        [[]] + rest
      else
        var r := [[s[0]] + rest[0]] + rest[1..];
        assert r[1..] == rest[1..];
        assert s == [s[0]] + s[1..];
        r
  }

  /** Where the first separator sits in `s`, or `|s|` when there is none. */
  function FirstSep(s: string, sep: char): nat {
    if sep in s then IndexOf(s, sep) else |s|
  }

  /** In the join of separator-free fields, the first field is exactly the
      text before the first separator, and a separator occurs at all iff
      there is more than one field. */
  lemma JoinHead(fields: seq<string>, sep: char)
    requires |fields| >= 1
    requires forall i :: 0 <= i < |fields| ==> sep !in fields[i]
    ensures FirstSep(Join(fields, sep), sep) == |fields[0]|
    ensures Join(fields, sep)[..|fields[0]|] == fields[0]
    ensures |fields| > 1 <==> sep in Join(fields, sep)
  {
    var j := Join(fields, sep);
    if |fields| > 1 {
      assert j[|fields[0]|] == sep;
      assert forall k :: 0 <= k < |fields[0]| ==> j[k] == fields[0][k];
    }
  }

  /** Joining is injective on separator-free fields. */
  lemma {:induction false} JoinInjective(a: seq<string>, b: seq<string>, sep: char)
    requires |a| >= 1 && |b| >= 1
    requires forall i :: 0 <= i < |a| ==> sep !in a[i]
    requires forall i :: 0 <= i < |b| ==> sep !in b[i]
    requires Join(a, sep) == Join(b, sep)
    ensures a == b
  {
    var j := Join(a, sep);
    JoinHead(a, sep);
    JoinHead(b, sep);
    assert a[0] == j[..|a[0]|] == b[0];
    if |a| > 1 {
      assert Join(a[1..], sep) == j[|a[0]| + 1..] == Join(b[1..], sep);
      JoinInjective(a[1..], b[1..], sep);
      assert a == [a[0]] + a[1..] && b == [b[0]] + b[1..];
    }
  }

  /** Splitting the join of separator-free fields recovers the fields. */
  lemma SplitJoin(fields: seq<string>, sep: char)
    requires |fields| >= 1
    requires forall i :: 0 <= i < |fields| ==> sep !in fields[i]
    ensures Split(Join(fields, sep), sep) == fields
  {
    JoinInjective(Split(Join(fields, sep), sep), fields, sep);
  }

  lemma JoinFirst(fields: seq<string>, sep: char)
    requires |fields| >= 1 && fields[0] != []
    ensures Join(fields, sep) != [] && Join(fields, sep)[0] == fields[0][0]
  {
  }

  lemma {:induction false} JoinLast(fields: seq<string>, sep: char)
    requires |fields| >= 1 && fields[|fields| - 1] != []
    ensures Join(fields, sep) != []
    ensures Join(fields, sep)[|Join(fields, sep)| - 1] == fields[|fields| - 1][|fields[|fields| - 1]| - 1]
  {
    if |fields| > 1 {
      JoinLast(fields[1..], sep);
    }
  }

  /** A line of separator-free fields that neither starts nor ends with
      whitespace reads back as the same fields after `strip()` and `split()`. */
  lemma SplitStripJoin(fields: seq<string>, sep: char)
    requires |fields| >= 1
    requires forall i :: 0 <= i < |fields| ==> sep !in fields[i]
    requires fields[0] != [] && !IsSpace(fields[0][0])
    requires fields[|fields| - 1] != [] && !IsSpace(fields[|fields| - 1][|fields[|fields| - 1]| - 1])
    ensures Split(Strip(Join(fields, sep) + "\n"), sep) == fields
  {
    JoinFirst(fields, sep);
    JoinLast(fields, sep);
    StripLine(Join(fields, sep), "\n");
    SplitJoin(fields, sep);
  }

  predicate IsDigit(c: char) {
    '0' <= c <= '9'
  }

  predicate AllDigits(s: string) {
    forall i :: 0 <= i < |s| ==> IsDigit(s[i])
  }

  function DigitChar(d: nat): (c: char)
    requires d < 10
    ensures IsDigit(c)
  {
    ('0' as int + d) as char
  }

  function DigitValue(c: char): nat
    requires IsDigit(c)
  {
    c as int - '0' as int
  }

  /** Value of decimal digits, most significant first; leading zeros allowed,
      as Python's `int()` allows them. */
  function DigitsValue(s: string): nat
    requires AllDigits(s)
  {
    if s == [] then 0 else 10 * DigitsValue(s[..|s| - 1]) + DigitValue(s[|s| - 1])
  }

  /** Python's `str()` of a non-negative integer: its shortest decimal text,
      which reads back as the same number. */
  function NatText(n: nat): (r: string)
    ensures |r| >= 1 && AllDigits(r)
    ensures DigitsValue(r) == n
    ensures |r| == 1 || r[0] != '0'
  {
    if n < 10 then
      [DigitChar(n)]
    else
      var r := NatText(n / 10) + [DigitChar(n % 10)];
      assert r[..|r| - 1] == NatText(n / 10);
      assert r[0] == NatText(n / 10)[0];
      r
  }

  /** Python's `str()` of an integer. */
  function IntText(i: int): string {
    if i < 0 then "-" + NatText(-i) else NatText(i)
  }

  /** `str()` of an integer has a minus sign exactly for negative numbers,
      then the shortest decimal digits of the magnitude. */
  lemma IntTextForm(i: int)
    ensures var r := IntText(i); |r| >= 1 && (r[0] == '-' <==> i < 0)
    ensures i >= 0 ==> AllDigits(IntText(i)) && DigitsValue(IntText(i)) == i
    ensures i < 0 ==> |IntText(i)| >= 2 && AllDigits(IntText(i)[1..]) && DigitsValue(IntText(i)[1..]) == -i
    ensures var d := if i < 0 then 1 else 0; |IntText(i)| == d + 1 || IntText(i)[d] != '0'
  {
    if i < 0 {
      assert IntText(i)[1..] == NatText(-i);
    }
  }

  /** The digits of an integer's text, after an optional sign. */
  function Unsigned(s: string): string {
    if |s| >= 1 && (s[0] == '-' || s[0] == '+') then s[1..] else s
  }

  /** The text `int()` accepts once stripped: an optional sign and one or
      more decimal digits. */
  predicate IntSyntax(s: string) {
    |Unsigned(s)| >= 1 && AllDigits(Unsigned(s))
  }

  /** Python's `int()` on decimal text: it accepts exactly the integer
      syntax, and the value has the digits' magnitude, negative only with a
      minus sign; anything else raises ValueError, modelled as None. */
  function ParseInt(s: string): (r: Option<int>)
    ensures r.Some? <==> IntSyntax(s)
    ensures r.Some? ==> r.value == if s[0] == '-' then -(DigitsValue(Unsigned(s)) as int) else DigitsValue(Unsigned(s))
  {
    if |s| >= 2 && (s[0] == '-' || s[0] == '+') && AllDigits(s[1..]) then
      var v: int := DigitsValue(s[1..]);
      Some(if s[0] == '-' then -v else v)
    else if |s| >= 1 && AllDigits(s) then
      Some(DigitsValue(s))
    else
      None
  }

  /** `int(str(i)) == i`. */
  lemma IntRoundTrip(i: int)
    ensures ParseInt(IntText(i)) == Some(i)
  {
    if i < 0 {
      assert IntText(i)[1..] == NatText(-i);
    }
  }

  /** The cents digits after the point of a float's text: one digit when
      the last is zero ("25.0", "25.5"), two otherwise ("25.05"). */
  function CentsText(c: nat): string
    requires c < 100
  {
    if c % 10 == 0 then [DigitChar(c / 10)] else [DigitChar(c / 10), DigitChar(c % 10)]
  }

  /** The cents of the one or two digits after a point: "5" is 50 cents,
      "05" is 5. */
  function FractionCents(f: string): nat
    requires 1 <= |f| <= 2 && AllDigits(f)
  {
    if |f| == 1 then 10 * DigitsValue(f) else DigitsValue(f)
  }

  /** Unsigned decimal text with at most two digits after the point: the
      text split at points is one or more digits, optionally followed by one
      or two digits. */
  predicate DecimalSyntax(u: string) {
    var p := Split(u, '.');
    && |p[0]| >= 1 && AllDigits(p[0])
    && (|p| == 1 || (|p| == 2 && 1 <= |p[1]| <= 2 && AllDigits(p[1])))
  }

  /** The value in cents of such text. */
  function DecimalCents(u: string): nat
    requires DecimalSyntax(u)
  {
    var p := Split(u, '.');
    100 * DigitsValue(p[0]) + (if |p| == 1 then 0 else FractionCents(p[1]))
  }

  /** Decimal text as `str()` prints a float of whole cents: a point, no
      leading zero unless the whole part is 0, and no trailing zero unless
      it is the only digit after the point. */
  predicate PrintedDecimal(u: string) {
    && DecimalSyntax(u)
    && var p := Split(u, '.');
    && |p| == 2
    && (|p[0]| == 1 || p[0][0] != '0')
    && (|p[1]| == 1 || p[1][1] != '0')
  }

  /** `split` cuts at the first separator: without one the text is the only
      piece; otherwise the text before it comes first, then the pieces of
      the rest. */
  lemma SplitAtFirst(u: string, sep: char)
    ensures sep !in u ==> Split(u, sep) == [u]
    ensures sep in u ==>
              var k := IndexOf(u, sep);
              && |Split(u, sep)| >= 2
              && Split(u, sep)[0] == u[..k]
              && Split(u, sep)[1..] == Split(u[k + 1..], sep)
  {
    var p := Split(u, sep);
    JoinHead(p, sep);
    if sep in u {
      var k := |p[0]|;
      var rest := p[1..];
      assert Join(p, sep) == p[0] + [sep] + Join(rest, sep);
      assert u[k + 1..] == Join(rest, sep);
      assert forall i :: 0 <= i < |rest| ==> sep !in rest[i] by {
        forall i | 0 <= i < |rest| ensures sep !in rest[i] {
          assert rest[i] == p[i + 1];
        }
      }
      SplitJoin(rest, sep);
    }
  }

  /** Python's `str()` of a float holding a whole number of cents. */
  function FareText(cents: int): string {
    var a := if cents < 0 then -cents else cents;
    var u := NatText(a / 100) + "." + CentsText(a % 100);
    if cents < 0 then "-" + u else u
  }

  /** `str()` of a fare has a minus sign exactly for negative fares, then
      the digits Python prints for the magnitude: the shortest whole part, a
      point, and one or two digits after it, worth the fare in cents. */
  lemma FareTextForm(cents: int)
    ensures var r := FareText(cents);
            |r| >= 3 && (r[0] == '-' <==> cents < 0) && '.' in r && IsDigit(r[|r| - 1])
    ensures var u := Unsigned(FareText(cents));
            PrintedDecimal(u) && DecimalCents(u) == if cents < 0 then -cents else cents
  {
    var a := if cents < 0 then -cents else cents;
    var u := NatText(a / 100) + "." + CentsText(a % 100);
    FareTextDigits(a);
    SignedText(FareText(cents), cents < 0, u);
  }

  /** The printed magnitude of a fare of `a` cents. */
  lemma FareTextDigits(a: nat)
    ensures var u := NatText(a / 100) + "." + CentsText(a % 100);
            && |u| >= 3 && IsDigit(u[0]) && '.' in u && IsDigit(u[|u| - 1])
            && PrintedDecimal(u) && DecimalCents(u) == a
  {
    var w, c := NatText(a / 100), CentsText(a % 100);
    var u := w + "." + c;
    CentsRoundTrip(a % 100);
    assert u[0] == w[0] && u[|w|] == '.' && u[|u| - 1] == c[|c| - 1];
    assert Join([w, c], '.') == u;
    SplitJoin([w, c], '.');
    if |c| == 2 {
      assert c[1] == DigitChar(a % 100 % 10);
    }
  }

  /** Text made of an optional minus sign before unsigned digits. */
  lemma SignedText(r: string, negative: bool, u: string)
    requires |u| >= 1 && IsDigit(u[0]) && r == if negative then "-" + u else u
    ensures |r| >= |u| && (r[0] == '-' <==> negative) && Unsigned(r) == u
    ensures r[|r| - 1] == u[|u| - 1] && ('.' in u ==> '.' in r)
  {
    if negative {
      assert r[1..] == u;
    }
  }

  /** Python's `float()` restricted to plain decimal text with at most two
      digits after the point; the result is in cents. */
  function ParseFare(s: string): (r: Option<int>)
    ensures r.Some? ==> |s| >= 1 && IsDigit(s[|s| - 1])
    ensures r.Some? && r.value < 0 ==> s[0] == '-'
    ensures |s| >= 1 && AllDigits(s) ==> r == Some(100 * DigitsValue(s))
    ensures r.Some? <==> DecimalSyntax(Unsigned(s))
    ensures r.Some? ==>
              r.value == if s[0] == '-' then -(DecimalCents(Unsigned(s)) as int) else DecimalCents(Unsigned(s))
  {
    UnsignedFareSyntax(Unsigned(s));
    if |s| >= 1 && (s[0] == '-' || s[0] == '+') then
      match ParseUnsignedFare(s[1..])
      case None => None
      case Some(v) =>
        var n: int := v;
        Some(if s[0] == '-' then -n else n)
    else
      ParseUnsignedFare(s)
  }

  function ParseUnsignedFare(s: string): (r: Option<nat>)
    ensures r.Some? ==> |s| >= 1 && IsDigit(s[|s| - 1])
  {
    if '.' !in s then
      if |s| >= 1 && AllDigits(s) then Some(100 * DigitsValue(s)) else None
    else
      var k := IndexOf(s, '.');
      var whole, frac := s[..k], s[k + 1..];
      if |whole| >= 1 && AllDigits(whole) && 1 <= |frac| <= 2 && AllDigits(frac) then
        Some(100 * DigitsValue(whole) + FractionCents(frac))
      else
        None
  }

  /** The fare parser accepts exactly `DecimalSyntax` and reads its value. */
  lemma UnsignedFareSyntax(u: string)
    ensures ParseUnsignedFare(u).Some? <==> DecimalSyntax(u)
    ensures ParseUnsignedFare(u).Some? ==> ParseUnsignedFare(u).value == DecimalCents(u)
  {
    SplitAtFirst(u, '.');
    if '.' in u {
      var k := IndexOf(u, '.');
      SplitAtFirst(u[k + 1..], '.');
    }
  }

  lemma CentsRoundTrip(d: nat)
    requires d < 100
    ensures 1 <= |CentsText(d)| <= 2 && AllDigits(CentsText(d))
    ensures FractionCents(CentsText(d)) == d
  {
    var c := CentsText(d);
    if d % 10 == 0 {
      assert c[..0] == [];
    } else {
      var hi, lo := DigitChar(d / 10), DigitChar(d % 10);
      assert c == [hi, lo];
      assert c[..1] == [hi];
      assert [hi][..0] == [];
      assert DigitsValue([hi]) == d / 10;
      assert DigitsValue(c) == 10 * DigitsValue([hi]) + d % 10;
    }
  }

  /** `float(str(x)) == x` for a fare held in cents: the printed text is
      decimal syntax whose value is the fare, with a minus sign exactly when
      it is negative. */
  lemma FareRoundTrip(cents: int)
    ensures ParseFare(FareText(cents)) == Some(cents)
  {
    FareTextForm(cents);
  }

  /** Python's `int()` on a string: surrounding whitespace is ignored. */
  function PyInt(s: string): Option<int> {
    ParseInt(Strip(s))
  }

  /** Python's `float()` on a fare's text: surrounding whitespace is
      ignored. */
  function PyFare(s: string): Option<int> {
    ParseFare(Strip(s))
  }

  /** A character of a number's printed form. */
  predicate IsNumeralChar(c: char) {
    IsDigit(c) || c == '-' || c == '.'
  }

  /** A printed number is unchanged by `strip()`. */
  lemma StripNumeral(s: string)
    requires s != [] && forall k :: 0 <= k < |s| ==> IsNumeralChar(s[k])
    ensures Strip(s) == s
  {
    assert s + "" == s;
    StripLine(s, "");
  }

  lemma IntTextNumeral(i: int)
    ensures IntText(i) != [] && forall k :: 0 <= k < |IntText(i)| ==> IsNumeralChar(IntText(i)[k])
  {
    var t := IntText(i);
    if i < 0 {
      assert t == "-" + NatText(-i);
      assert forall k :: 1 <= k < |t| ==> t[k] == NatText(-i)[k - 1];
    }
  }

  lemma FareTextNumeral(cents: int)
    ensures FareText(cents) != [] && forall k :: 0 <= k < |FareText(cents)| ==> IsNumeralChar(FareText(cents)[k])
  {
    var a := if cents < 0 then -cents else cents;
    var w, c := NatText(a / 100), CentsText(a % 100);
    var u := w + "." + c;
    assert FareText(cents) == if cents < 0 then "-" + u else u;
  }

  /** `int(str(i)) == i`, whitespace handling included. */
  lemma PyIntRoundTrip(i: int)
    ensures PyInt(IntText(i)) == Some(i)
  {
    IntTextNumeral(i);
    StripNumeral(IntText(i));
    IntRoundTrip(i);
  }

  /** `float(str(x)) == x` for a fare held in cents, whitespace handling
      included. */
  lemma PyFareRoundTrip(cents: int)
    ensures PyFare(FareText(cents)) == Some(cents)
  {
    FareTextNumeral(cents);
    StripNumeral(FareText(cents));
    FareRoundTrip(cents);
  }
}

=== FILE: wrappers.dfy ===
/** The two failure-carrying shapes the model needs: an optional value and a
    value-or-error result. */
module Wrappers {

  datatype Option<+T> = None | Some(value: T)

  datatype Result<+R, +E> = Ok(value: R) | Err(error: E)
}
